=== FILE: README.md ===
# cdnvalidator entitlement and authorization core, in Dafny

cdnvalidator is a gateway in front of CloudFront invalidations. Callers are
identified by the claims (groups and scopes) of a JWT, and the gateway
decides from its configuration which "vanity" distributions those claims
may invalidate. It rewrites each requested path under the distribution's
prefix, then hands the batch to the CDN client.

This project models that decision logic as pure Dafny over immutable maps:

- `Configuration` (`internal/config/config.go`) covers the configuration:
  - distribution name to (ID, Prefix), and claim to a list of names;
  - uniqueness validation and the state-update order of `parse`;
  - claim resolution, the sorted name listing and the single-entry lookup.
- `ConfigTypes` (`internal/config/types.go`) covers the keyed map wrappers
  `Get` / `Set` / `Delete` / `Names` and `New`, taken one call at a time.
- `Entitlements` (`internal/config/entitlements.go`) covers
  `GetEntitlements`: the ordered union of boundary lists, without repeating
  a name.
- `Core` (`internal/core/core.go`) covers the claims a request carries.
- `InvalidationErrors` (`internal/core/v1beta1/types.go`) covers:
  - the typed error with its code, status and wrapped error;
  - the code-to-reason table and the two classification predicates.
- `DistributionService` (`internal/core/v1beta1/distribution_service.go`)
  covers:
  - the ordered authorisation outcomes and the listing;
  - `CreateInvalidation` and `GetInvalidationStatus` against an abstract
    CDN client.
- `GoPath` covers Go's lexical `path.Clean` and `path.Join`, which the
  service uses to put paths under a prefix.
- `Authorization` (`internal/server/middleware/authorization/authorization.go`)
  covers:
  - how the token source is chosen: the `Authorization` header, a named
    header, or a cookie;
  - the 401 / 403 / forward outcome of the middleware.
- `Common` holds `Option` / `Result`, the `strings` predicates the source
  uses, and Go's byte-wise string order for `sort.Strings`.

Effects become parameters:

- The CDN client is a function from the call made to its result. Each
  service outcome records the call it made, if any.
- JWT decoding is a partial function from token text to groups and scopes.
- A request is its header map plus its cookies by name.

Go's random map iteration order is an arbitrary choice (`:|`) in the
methods that iterate maps. Their contracts hold for every order.

Two files come from later revisions than `config.go`. They call
`DistributionsFromClaims` and `Distribution(name)`, which `config.go` does
not define. These are modelled as the key set of `claimsDistributions` and
as an optional map lookup.

## Model

| member | source | states |
|---|---|---|
| Core.GetClaims | internal/core/core.go:11-17 | A context without a claims list reads as no claims; otherwise the stored list is returned as is. |
| Configuration.ValidateDistributions | internal/config/config.go:34-47 | Fails exactly when two distinct names share the same (ID, Prefix) value, whatever the visiting order. When it fails, it names a value that really is shared. |
| Configuration.Parse | internal/config/config.go:49-64 | An undecodable document leaves the state unchanged. A decoded one replaces both maps before validation, so a duplicate still replaces the state, and the error comes back exactly when the values are not unique. |
| Configuration.ListedDistributions | internal/config/config.go:84-90 | The loop over one claim's list keeps exactly the listed names that are configured, each with its configured value. |
| Configuration.ClaimDistributions | internal/config/config.go:81-93 | Exactly the names the claim lists that exist in the distributions, with their configured values. Dangling names are dropped; an unknown claim gives the empty map. |
| Configuration.ClaimsDistributions | internal/config/config.go:97-108 | A name is in the result iff some given claim lists it and it is configured; every value is the configured one. |
| Configuration.ClaimsOrderIrrelevant | internal/config/config.go:97-108 | Claim lists with the same members, in any order and with any repeats, resolve to the same map. No claims resolve to the empty map. |
| Configuration.ClaimsDistributionsIsUnion | internal/config/config.go:100-105 | The resolved map is the union of `claimDistributions` over the claims: a name is in it iff it is in the map of some claim. |
| Configuration.ClaimsDistributionNames | internal/config/config.go:117-128 | The result is strictly ascending in byte order, so it has no repeats. It holds exactly the entitled names and has as many entries as the resolved map. |
| Common.SortedListingUnique | internal/config/config.go:120-125 | Two strictly sorted lists with the same elements are equal, so the sorted listing does not depend on map order. |
| Common.Insert | internal/config/config.go:125 | Inserting a new name into a strictly sorted list keeps it strictly sorted and adds exactly that name. |
| Configuration.ClaimsDistribution | internal/config/config.go:132-140 | The configured entry when the claims are entitled to the name; otherwise the zero `Distribution{}`. |
| Configuration.DistributionsFromClaims | internal/core/v1beta1/distribution_service.go:72 | The entitled set: a name is in it iff some claim lists it and it is configured. |
| Configuration.ErrorMessage | internal/config/config.go:40 | The uniqueness error text: the fixed message, then the ID straight after `id:` and the prefix straight after ` prefix:`. |
| Configuration.DuplicateMessageExample | internal/config/config_test.go:46-63 | The test's shared value (ID 123, prefix `/foo`) is reported as `…id:123 prefix:/foo`. That is not the text with spaces after the colons that the test expects. |
| Configuration.LookupDistribution | internal/core/v1beta1/distribution_service.go:66-67 | Present exactly for configured names, with the configured value. |
| Configuration.ExampleEntitlements | internal/config/config_test.go:196-216 | With the test configuration, `grp1` is entitled to `dis1` and `dis2`, `grp2` to `dis2` only, and `grp3` to nothing. |
| ConfigTypes.KeyedMap.Get | internal/config/types.go:20-26 | A value is found exactly for the keys present, and it is the value stored under that key. |
| ConfigTypes.KeyedMap.Set | internal/config/types.go:28-32 | Afterwards the key reads back the value set; every other key reads as before. |
| ConfigTypes.KeyedMap.Delete | internal/config/types.go:34-38 | Afterwards the key is not found; every other key reads as before. |
| ConfigTypes.KeyedMap.Names | internal/config/types.go:40-50 | Every key exactly once and nothing else, in an unspecified order. |
| ConfigTypes.New | internal/config/types.go:94-100 | Both wrappers start empty: no key is found in either. |
| ConfigTypes.LastWriteWins | internal/config/types.go:20-38 | After any sequence of `Set` and `Delete` calls, a key reads back what the last call on that key left: its value after a `Set`, nothing after a `Delete`, and the original reading when no call touched it. Calls on other keys are invisible. |
| Entitlements.GetEntitlements | internal/config/entitlements.go:4-20 | The scan over boundaries and their lists returns the entries of the names that the first-occurrence reference keeps, in that order. |
| Entitlements.FirstOccurrencesMembers | internal/config/entitlements.go:12-15 | The names kept are exactly the scanned names not already used, and never more than were scanned. |
| Entitlements.FirstOccurrencesDistinct | internal/config/entitlements.go:12-15 | No name is kept twice. |
| Entitlements.FirstOccurrencesOrdered | internal/config/entitlements.go:9-17 | The names kept appear in the order of their first occurrence in the scan. |
| Entitlements.EntitledNamesProperties | internal/config/entitlements.go:9-17 | The names behind the result have no repeats. They are exactly the names any known boundary lists, in first-occurrence order, and no more than the matched lists hold. |
| Entitlements.MatchedMembers | internal/config/entitlements.go:9-11 | The scanned names are exactly those listed under some boundary that is configured. |
| Entitlements.UnknownBoundariesContributeNothing | internal/config/entitlements.go:5-10 | When no boundary is configured the result is the empty list. |
| Entitlements.SameValueDifferentNames | internal/config/entitlements.go:12-15 | Deduplication is by name: two listed names with equal entries both contribute that entry, at two positions. |
| Entitlements.ExampleResults | internal/config/entitlements_test.go:36-71 | The test expectations: `grp1,grp2` give `vn1,vn2`; `grp3` gives `vn2`; an unknown boundary gives nothing. |
| InvalidationErrors.InvalidationText | internal/core/v1beta1/types.go:90-95 | The text of an invalidation error is its wrapped error's text when it wraps one; otherwise it is its status. |
| InvalidationErrors.NewInvalidationError | internal/core/v1beta1/types.go:101-109 | The code and the wrapped error are kept, and `Unwrap` returns that error. The 404 and 403 statuses are the table's reasons followed by the argument. The error's text is the wrapped error's text. |
| InvalidationErrors.Unwrap | internal/core/v1beta1/types.go:97-99 | The unwrapped error is the one whose text the invalidation error shows; with nothing wrapped, the error shows its status. |
| InvalidationErrors.ErrorIsUnauthorized | internal/core/v1beta1/types.go:111-118 | True exactly for an invalidation error whose code is 403. |
| InvalidationErrors.ErrorResourceNotFound | internal/core/v1beta1/types.go:120-127 | True exactly for an invalidation error whose code is 404. |
| InvalidationErrors.ClassificationExclusive | internal/core/v1beta1/types.go:111-127 | `ErrorIsUnauthorized` holds iff the value is an invalidation error with code 403, and `ErrorResourceNotFound` iff it has code 404. They are never both true, and both are false for plain errors. |
| InvalidationErrors.ClassifyNewError | internal/core/v1beta1/types.go:67-71 | A freshly built error classifies by the code it was built with. |
| DistributionService.GetDistribution | internal/core/v1beta1/distribution_service.go:60-78 | Outcomes in a fixed order: no claims is the plain error; an unknown name is 404 with its reason; a known name outside the entitled set is 403 with its reason. Success happens iff the claims are entitled, and returns the configured entry. |
| DistributionService.List | internal/core/v1beta1/distribution_service.go:80-95 | Empty claims give exactly the plain error, and any non-empty claims succeed, even claims that match nothing. The map then holds exactly the entitled names, each with its configured ID and prefix. |
| DistributionService.PrefixPaths | internal/core/v1beta1/distribution_service.go:103-112 | Fails iff some path holds `../`. Otherwise it gives one `path.Join(prefix, p)` per input path, in input order. |
| DistributionService.CreateInvalidation | internal/core/v1beta1/distribution_service.go:97-127 | Authorisation errors pass through and make no CDN call. Any path holding `../` rejects the batch with the 500 invalid-path error and no call. Otherwise exactly one create call carries the distribution ID and the joined paths. A CDN failure becomes a 500 wrapping "cloudfront CreateInvalidation failed"; a success is copied through. |
| DistributionService.GetInvalidationStatus | internal/core/v1beta1/distribution_service.go:129-148 | Authorisation errors pass through with no CDN call. Otherwise one status query is made for the distribution ID. A failure is a 500 wrapping "cloudfront GetInvalidation failed"; a success is copied through. |
| DistributionService.GetDistributionExamples | internal/core/v1beta1/distribution_service_test.go:54-71 | With the test configuration, `dis3` is the 404 invalidation error wrapping "distribution dis3 not found". `grp2` asking for `dis1` is the 403 error wrapping "distribution unauthorized". Both carry the name as argument and classify accordingly. The lemma also pins the guard of distribution_service.go:61-63: absent claims are the plain error. |
| DistributionService.ExampleGrp1GetsDis1 | internal/core/v1beta1/distribution_service_test.go:54-59 | `grp1` obtains `dis1` with ID 123 and prefix `/foo`. |
| DistributionService.ListExamples | internal/core/v1beta1/distribution_service_test.go:111-120 | Empty claims are the error; claims matching nothing list an empty map. |
| DistributionService.CreateInvalidationExample | internal/core/v1beta1/distribution_service_test.go:150-167 | The path `/*` under distribution `dis1` is submitted as `/foo/*` with ID 123. |
| DistributionService.CreateInvalidationConfinedWhen | internal/core/v1beta1/distribution_service.go:105-111 | When no path is `..` or ends in `/..`, every path sent to the CDN names the rooted prefix or lies below it. |
| DistributionService.TrailingDotDotEscapesPrefix | internal/core/v1beta1/distribution_service.go:105-111 | As written, the path `/..` passes the `../` guard and is submitted as `/`, outside the prefix `/foo`. |
| DistributionService.EmptyPathsReachCdn | internal/core/v1beta1/distribution_service.go:97-114 | As written, an empty batch is not rejected and reaches the CDN as a call with no paths. |
| DistributionService.CreateInvalidationConfined | internal/core/v1beta1/distribution_service.go:105-111 | Corrected: the CDN is called iff authorisation passes, the batch is non-empty and no path climbs out. An authorised empty batch is refused with the no-paths error, and an authorised batch with a climbing path (`../`, `..` or a trailing `/..`) with the invalid-path error, neither making a call. When the call is made, the outcome is that of the as-written operation. When, in addition, the distribution's prefix is rooted, every path the CDN receives is the cleaned prefix or lies below it. |
| DistributionService.ConfinedRejectsEscapes | internal/core/v1beta1/distribution_service_test.go:171-187 | Corrected: `/..` is rejected as an invalid path, and an empty batch with the no-paths error, neither reaching the CDN. |
| GoPath.JoinConfined | internal/core/v1beta1/distribution_service.go:111 | Joining a path with no `..` element onto a rooted prefix gives the cleaned prefix or a path below it. |
| GoPath.Clean | internal/core/v1beta1/distribution_service.go:111 | Go's `path.Clean`, as `path.Join` applies it. The result is never empty and is rooted iff the input is. It has no trailing slash unless it is `/`. A rooted result has no `.` or `..` element, so it never climbs above `/`. What the elements are is stated by `GoPath.CleanKeeps`. |
| GoPath.Join | internal/core/v1beta1/distribution_service.go:111 | Empty only when both parts are empty. Rooted iff the first part is, or the first part is empty and the second is rooted. No trailing slash unless the result is `/`. What the elements are is stated by `GoPath.JoinKeeps`. |
| GoPath.CleanKeeps | internal/core/v1beta1/distribution_service.go:111 | A rooted path without `..` cleans to exactly its own elements, in order, less every `.`. Repeated slashes and `.` elements disappear; nothing else does. |
| GoPath.JoinKeeps | internal/core/v1beta1/distribution_service.go:111 | Joining a path without `..` onto a rooted prefix gives the cleaned prefix's elements followed by the path's own elements, in order, less every `.`. |
| GoPath.ResolveKeepsClean | internal/core/v1beta1/distribution_service.go:111 | Applying path elements to a clean stack keeps it clean. No `.` is left; a rooted path keeps no `..`; in a relative path the `..` elements all come first. |
| GoPath.CleanIdempotent | internal/core/v1beta1/distribution_service.go:111 | Cleaning an already cleaned path changes nothing. |
| GoPath.JoinIsClean | internal/core/v1beta1/distribution_service.go:111 | A non-empty `Join` result is already clean. |
| GoPath.ClimbsFreeHasNoDotDot | internal/core/v1beta1/distribution_service.go:106-107 | A path with no `../`, not equal to `..` and not ending in `/..`, has no `..` element. |
| GoPath.DotDotWithoutSlashIsLast | internal/core/v1beta1/distribution_service.go:107 | A path with a `..` element but no `../` is `..` or ends in `/..`, which is exactly the gap in the guard. |
| GoPath.JoinClimbsOutExample | internal/core/v1beta1/distribution_service.go:107-111 | `Join("/foo", "/..")` is `/`, though `/..` holds no `../`, and `/` is not under `/foo`. |
| GoPath.JoinUnderPrefixExample | internal/core/v1beta1/distribution_service.go:111 | `Join("/foo", "/*")` is `/foo/*`. |
| Authorization.CanonicalHeaderKey | internal/server/middleware/authorization/authorization.go:47 | `textproto.CanonicalMIMEHeaderKey` keeps the length. A key holding a character not allowed in a header name comes back unchanged. Otherwise each character is upper-cased at the start and after `-`, and lower-cased elsewhere. |
| Authorization.HeaderGet | internal/server/middleware/authorization/authorization.go:39 | `Header.Get` reads the entry under the canonical key: its first value when there is one, and "" when the key is missing or its list is empty. |
| Authorization.CanonicalHeaderKeyIdempotent | internal/server/middleware/authorization/authorization.go:47 | Canonicalising a header key twice gives the same key as once. |
| Authorization.AuthorizationKeyIsCanonical | internal/server/middleware/authorization/authorization.go:38-39 | `Authorization` is its own canonical key, so the presence test and `Header.Get` read the same entry. |
| Authorization.GetAuthorizationToken | internal/server/middleware/authorization/authorization.go:35-67 | Three modes, as follows. (1) Auth header enabled and `Authorization` present: its first value less a leading `Bearer `. (2) Otherwise, when enabled or a header name is set: the named header's first value if present (even empty), else the "No … header found" error. (3) Only with neither: the cookie, where a missing cookie and an empty one are errors. |
| Authorization.BearerStripped | internal/server/middleware/authorization/authorization.go:37-44 | A value `Bearer ` + t yields t. |
| Authorization.BearerWithoutSpaceKept | internal/server/middleware/authorization/authorization.go:40-43 | A value `Bearer` + t, with t not starting with a space, is returned unchanged. |
| Authorization.HeaderModesIgnoreCookies | internal/server/middleware/authorization/authorization.go:36-52 | In the header modes the cookies never affect the outcome. |
| Authorization.Handler | internal/server/middleware/authorization/authorization.go:69-93 | A token error gives exactly 401 "unauthorized", and a decode failure exactly 403 "invalid token", neither forwarding. Otherwise the request is forwarded carrying groups followed by scopes, order and repeats kept. |
| Authorization.EmptyCookieIsUnauthorized | internal/server/middleware/authorization/authorization.go:61-63 | In cookie mode an empty cookie is answered 401 whatever the decoder would say. |

## Left out

- YAML decoding and file reading (`Load`, the unmarshalling in `parse`, `config` and `initConfig` in `types.go`): a document reaches `Parse` already decoded, or as "undecodable".
- `parse` passes its `config` value, not a pointer, to `yaml.Unmarshal`, so the decoded values never reach `config`, which keeps its zero value. When the decoder reports no error, `parse` then installs those empty maps (`config.go:55-56`), validates them and succeeds, clearing the configuration. The model follows the evident intent, that a decoded document replaces the state.
- The read/write mutex in `types.go`: calls are modelled one at a time. The stored `*Distribution` pointers are modelled as the values they point to, so aliasing is not modelled.
- `validateEntitlements` and the dangling-entitlement rejection the configuration tests expect: neither appears in the `config.go` modelled here. Dangling names are silently dropped, as the code does.
- Configuration.ErrorMessage: the uniqueness error text follows the code (`id:123 prefix:/foo`, no spaces). The configuration test expects spaces after the colons.
- The token errors of `getAuthorizationToken` are kept as values (`TokenError`) without their texts. The middleware only logs them and answers every one with 401 "unauthorized".
- JWT decoding (`internal/jwt/jwt.go`) is a parameter: a partial function from token text to groups and scopes.
- The CloudFront client and its SDK types are a parameter, and so is `time.Time`, held as an opaque value.
- Authorization.GetAuthorizationToken: `Request.Cookie` parsing of the `Cookie` header is not modelled. Cookies arrive as a map by name. Header maps are taken as `net/http` stores them, keyed by canonical name.
- HTTP transport, the UI, metrics, the CLI, functional options, logging, test fakes and the stale interfaces are outside this model.
- InvalidationErrors.NewInvalidationError: the status text for code 500 is left unspecified (`None`). It comes from formatting a template the table does not have, and the text Go prints for that is not modelled. `NewInvalidationError` takes the single template argument every call site passes.
- InvalidationErrors.ClassificationExclusive: `errors.As` is modelled only for errors that wrap nothing, or are invalidation errors themselves. No plain error in the modelled code wraps another with `%w`.

## Findings

| source | as written | input that shows it | evidently intended | confidence | as-written member | corrected member |
|---|---|---|---|---|---|---|
| internal/core/v1beta1/distribution_service.go:105-111 | A path is refused only if it holds the substring `../` before `path.Join(prefix, p)` | Path `/..` for distribution `dis1` with prefix `/foo`: it passes and is submitted as `/`, the whole distribution | No path may climb above the prefix (the comment "prevent users from … going up a directory"), so also refuse `..` and a trailing `/..` | not executed | DistributionService.TrailingDotDotEscapesPrefix | DistributionService.CreateInvalidationConfined |
| internal/core/v1beta1/distribution_service.go:97-114 | An empty `paths` slice passes the loop and a CloudFront invalidation with no paths is requested | `paths = []` for `grp1` / `dis1` (distribution_service_test.go:171-178 expects a 500 "must provide at least one path") | An empty batch is refused before the CDN is called | not executed | DistributionService.EmptyPathsReachCdn | DistributionService.CreateInvalidationConfined |

=== FILE: authorization.dfy ===
/**
 The authorization middleware of
 `internal/server/middleware/authorization/authorization.go`: picks the
 token source from its settings, decodes the token's claims, and either
 answers 401 / 403 or forwards the request with the claims attached.

 A request is abstracted as its header map (keys as `net/http` stores
 them) and its cookies by name. Decoding a token (`jwt.TokenClaims`) is a
 parameter: a partial function from token text to groups and scopes.
 */
module Authorization {
  import opened Common
  import Core

  datatype Middleware = Middleware(authCookieName: string, authHeaderName: string, authHeaderEnabled: bool)

  datatype Request = Request(headers: map<string, seq<string>>, cookies: map<string, string>)

  datatype TokenError =
    | NoHeader(name: string)
    | NoCookie
    | TokenEmpty

  /** The decoded claims of a token: `jwt.Claims` groups and scopes. */
  datatype TokenClaims = TokenClaims(groups: seq<string>, scopes: seq<string>)

  /** What the middleware does with a request. */
  datatype HandlerOutcome =
    | Reject(status: int, body: string)
    | Forward(ctx: Core.Context)

  // -----------------------------------------------------------------------
  // Header keys

  /** A character allowed in a header field name (an RFC 7230 token character). */
  predicate ValidHeaderFieldChar(ch: char) {
    ('a' <= ch <= 'z') || ('A' <= ch <= 'Z') || ('0' <= ch <= '9')
    || ch in "!#$%&'*+-.^_`|~"
  }

  /** Case of one character: upper at the start and after `-`, lower elsewhere. */
  function CanonicalChar(ch: char, upper: bool): char {
    if upper && 'a' <= ch <= 'z' then (ch as int - 32) as char
    else if !upper && 'A' <= ch <= 'Z' then (ch as int + 32) as char
    else ch
  }

  function CanonicalFrom(s: string, upper: bool): (r: string)
    ensures |r| == |s|
    decreases |s|
  {
    if s == [] then []
    else
      var ch := CanonicalChar(s[0], upper);
      [ch] + CanonicalFrom(s[1..], ch == '-')
  }

  /**
   `textproto.CanonicalMIMEHeaderKey`: a key with any character that may not
   appear in a header name is returned unchanged; otherwise each letter is
   upper case at the start and after `-`, lower case elsewhere.
   */
  function CanonicalHeaderKey(s: string): (r: string)
    ensures |r| == |s|
    ensures (exists i :: 0 <= i < |s| && !ValidHeaderFieldChar(s[i])) ==> r == s
    ensures (forall i :: 0 <= i < |s| ==> ValidHeaderFieldChar(s[i])) ==>
              forall i :: 0 <= i < |s| ==> r[i] == CanonicalChar(s[i], i == 0 || s[i - 1] == '-')
  {
    if exists i :: 0 <= i < |s| && !ValidHeaderFieldChar(s[i]) then s
    else
      CanonicalFromPointwise(s, true);
      CanonicalFrom(s, true)
  }

  /**
   Each character of `CanonicalFrom` depends only on itself and its
   predecessor: upper case at the start (when `upper`) and after `-`.
   */
  lemma {:induction false} CanonicalFromPointwise(s: string, upper: bool)
    ensures forall i :: 0 <= i < |s| ==>
              CanonicalFrom(s, upper)[i] == CanonicalChar(s[i], if i == 0 then upper else s[i - 1] == '-')
    decreases |s|
  {
    if s != [] {
      var ch := CanonicalChar(s[0], upper);
      assert ch == '-' <==> s[0] == '-';
      CanonicalFromPointwise(s[1..], ch == '-');
      var r := CanonicalFrom(s, upper);
      assert r == [ch] + CanonicalFrom(s[1..], ch == '-');
      forall i | 0 <= i < |s|
        ensures r[i] == CanonicalChar(s[i], if i == 0 then upper else s[i - 1] == '-')
      {
        if i > 0 {
          assert r[i] == CanonicalFrom(s[1..], ch == '-')[i - 1];
          assert s[1..][i - 1] == s[i];
          if i > 1 {
            assert s[1..][i - 2] == s[i - 1];
          }
        }
      }
    }
  }

  lemma {:induction false} CanonicalFromIdempotent(s: string, upper: bool)
    ensures CanonicalFrom(CanonicalFrom(s, upper), upper) == CanonicalFrom(s, upper)
    decreases |s|
  {
    if s != [] {
      var r := CanonicalFrom(s, upper);
      var ch := CanonicalChar(s[0], upper);
      assert r[0] == ch && r[1..] == CanonicalFrom(s[1..], ch == '-');
      assert CanonicalChar(ch, upper) == ch;
      CanonicalFromIdempotent(s[1..], ch == '-');
    }
  }

  lemma {:induction false} CanonicalFromKeepsValid(s: string, upper: bool)
    requires forall i :: 0 <= i < |s| ==> ValidHeaderFieldChar(s[i])
    ensures forall i :: 0 <= i < |s| ==> ValidHeaderFieldChar(CanonicalFrom(s, upper)[i])
    decreases |s|
  {
    if s != [] {
      var ch := CanonicalChar(s[0], upper);
      CanonicalFromKeepsValid(s[1..], ch == '-');
      assert ValidHeaderFieldChar(ch);
      forall i | 0 < i < |s|
        ensures ValidHeaderFieldChar(CanonicalFrom(s, upper)[i])
      {
        assert CanonicalFrom(s, upper)[i] == CanonicalFrom(s[1..], ch == '-')[i - 1];
      }
    }
  }

  /** Canonicalising a key twice changes nothing more. */
  lemma CanonicalHeaderKeyIdempotent(s: string)
    ensures CanonicalHeaderKey(CanonicalHeaderKey(s)) == CanonicalHeaderKey(s)
  {
    if forall i :: 0 <= i < |s| ==> ValidHeaderFieldChar(s[i]) {
      CanonicalFromKeepsValid(s, true);
      CanonicalFromIdempotent(s, true);
    }
  }

  /**
   `Header.Get`: the first value stored under the canonical form of `key`,
   or "" when there is none.
   */
  function HeaderGet(headers: map<string, seq<string>>, key: string): (v: string)
    ensures CanonicalHeaderKey(key) !in headers ==> v == ""
    ensures CanonicalHeaderKey(key) in headers && |headers[CanonicalHeaderKey(key)]| > 0 ==>
              v == headers[CanonicalHeaderKey(key)][0]
    ensures CanonicalHeaderKey(key) in headers && headers[CanonicalHeaderKey(key)] == [] ==> v == ""
  {
    var k := CanonicalHeaderKey(key);
    if k in headers && |headers[k]| > 0 then headers[k][0] else ""
  }

  // -----------------------------------------------------------------------
  // Token selection and the handler

  /**
   `getAuthorizationToken`. With the auth header enabled, a present
   `Authorization` header wins, less a leading `Bearer `; when it is absent
   control falls through to the named header (whose name may be empty). The
   named header, if present, is returned even when empty. Only with the
   auth header disabled and no header name is the cookie read; a missing
   cookie and an empty one are errors.
   */
  function GetAuthorizationToken(m: Middleware, req: Request): (r: Result<string, TokenError>)
    ensures m.authHeaderEnabled && "Authorization" in req.headers ==>
              r == Ok(TrimPrefix(HeaderGet(req.headers, "Authorization"), "Bearer "))
    ensures (m.authHeaderEnabled && "Authorization" !in req.headers) || (!m.authHeaderEnabled && m.authHeaderName != "") ==>
              r == (if CanonicalHeaderKey(m.authHeaderName) in req.headers
                    then Ok(HeaderGet(req.headers, m.authHeaderName))
                    else Err(NoHeader(m.authHeaderName)))
    ensures !m.authHeaderEnabled && m.authHeaderName == "" ==>
              r == (if m.authCookieName !in req.cookies then Err(NoCookie)
                    else if req.cookies[m.authCookieName] == "" then Err(TokenEmpty)
                    else Ok(req.cookies[m.authCookieName]))
  {
    if m.authHeaderEnabled && "Authorization" in req.headers then
      var v := HeaderGet(req.headers, "Authorization");
      Ok(if HasPrefix(v, "Bearer") then TrimPrefix(v, "Bearer ") else v)
    else if m.authHeaderEnabled || m.authHeaderName != "" then
      if CanonicalHeaderKey(m.authHeaderName) in req.headers then Ok(HeaderGet(req.headers, m.authHeaderName))
      else Err(NoHeader(m.authHeaderName))
    else if m.authCookieName !in req.cookies then Err(NoCookie)
    else if req.cookies[m.authCookieName] == "" then Err(TokenEmpty)
    else Ok(req.cookies[m.authCookieName])
  }

  lemma {:induction false} LowerCaseUnchanged(s: string)
    requires forall i :: 0 <= i < |s| ==> 'a' <= s[i] <= 'z'
    ensures CanonicalFrom(s, false) == s
    decreases |s|
  {
    if s != [] {
      LowerCaseUnchanged(s[1..]);
      assert s == [s[0]] + s[1..];
    }
  }

  /** A capitalised word is already a canonical header key. */
  lemma CapitalizedIsCanonical(s: string)
    requires |s| > 0 && 'A' <= s[0] <= 'Z'
    requires forall i :: 1 <= i < |s| ==> 'a' <= s[i] <= 'z'
    ensures CanonicalHeaderKey(s) == s
  {
    var tail := s[1..];
    assert forall i :: 0 <= i < |tail| ==> tail[i] == s[i + 1];
    LowerCaseUnchanged(tail);
    assert s == [s[0]] + tail;
    assert forall i :: 0 <= i < |s| ==> ValidHeaderFieldChar(s[i]);
  }

  /** The standard header's name is already in canonical form. */
  lemma AuthorizationKeyIsCanonical()
    ensures CanonicalHeaderKey("Authorization") == "Authorization"
  {
    CapitalizedIsCanonical("Authorization");
  }

  /** A leading `Bearer ` is stripped once from the `Authorization` value. */
  lemma BearerStripped(m: Middleware, req: Request, token: string, rest: seq<string>)
    requires m.authHeaderEnabled
    requires "Authorization" in req.headers && req.headers["Authorization"] == ["Bearer " + token] + rest
    ensures GetAuthorizationToken(m, req) == Ok(token)
  {
    AuthorizationKeyIsCanonical();
    assert HeaderGet(req.headers, "Authorization") == "Bearer " + token;
  }

  /**
   A value starting `Bearer` without the following space is returned as it
   stands, although the source's test for it is on `Bearer` alone.
   */
  lemma BearerWithoutSpaceKept(m: Middleware, req: Request, token: string, rest: seq<string>)
    requires m.authHeaderEnabled
    requires "Authorization" in req.headers && req.headers["Authorization"] == ["Bearer" + token] + rest
    requires token == [] || token[0] != ' '
    ensures GetAuthorizationToken(m, req) == Ok("Bearer" + token)
  {
    AuthorizationKeyIsCanonical();
    var v := "Bearer" + token;
    assert HeaderGet(req.headers, "Authorization") == v;
    if |token| > 0 {
      assert v[6] == token[0];
    }
    assert !HasPrefix(v, "Bearer ");
  }

  /**
   Header modes never read the cookie: whenever a header mode is selected,
   the outcome is the same whatever cookies the request carries.
   */
  lemma HeaderModesIgnoreCookies(m: Middleware, headers: map<string, seq<string>>,
                                 cookies1: map<string, string>, cookies2: map<string, string>)
    requires m.authHeaderEnabled || m.authHeaderName != ""
    ensures GetAuthorizationToken(m, Request(headers, cookies1)) == GetAuthorizationToken(m, Request(headers, cookies2))
  {
  }

  /**
   `handler`: no token is 401 and a token that does not decode is 403,
   neither forwarding; otherwise the request goes on carrying the groups
   followed by the scopes, in order and with repeats kept.
   */
  function Handler(m: Middleware, req: Request, decode: string -> Option<TokenClaims>): (r: HandlerOutcome)
    ensures GetAuthorizationToken(m, req).Err? <==> r == Reject(401, "unauthorized")
    ensures GetAuthorizationToken(m, req).Ok? && decode(GetAuthorizationToken(m, req).value).None? <==>
              r == Reject(403, "invalid token")
    ensures r.Forward? <==>
              GetAuthorizationToken(m, req).Ok? && decode(GetAuthorizationToken(m, req).value).Some?
    ensures r.Forward? ==>
              var tc := decode(GetAuthorizationToken(m, req).value).value;
              Core.GetClaims(r.ctx) == tc.groups + tc.scopes
  {
    match GetAuthorizationToken(m, req)
    case Err(_) => Reject(401, "unauthorized")
    case Ok(token) =>
      match decode(token)
      case None => Reject(403, "invalid token")
      case Some(tc) => Forward(Some(tc.groups + tc.scopes))
  }

  /** In cookie mode, an empty cookie is rejected with 401 before decoding. */
  lemma EmptyCookieIsUnauthorized(m: Middleware, req: Request, decode: string -> Option<TokenClaims>)
    requires !m.authHeaderEnabled && m.authHeaderName == ""
    requires m.authCookieName in req.cookies && req.cookies[m.authCookieName] == ""
    ensures Handler(m, req, decode) == Reject(401, "unauthorized")
  {
  }
}

=== FILE: common.dfy ===
/**
 Shared building blocks: the Option/Result wrappers used for Go's
 `(value, ok)` and `(value, error)` returns, the handful of `strings`
 package operations the gateway relies on, and Go's byte-wise string order.
 */
module Common {

  /** A value that may be absent: Go's `(v, ok)` pair or a nil pointer. */
  datatype Option<+T> = None | Some(value: T)

  /** A Go `(value, error)` return. */
  datatype Result<+T, +E> = Ok(value: T) | Err(error: E)

  /** Go's `strings.HasPrefix`. */
  predicate HasPrefix(s: string, prefix: string) {
    prefix <= s
  }

  /** Go's `strings.HasSuffix`. */
  predicate HasSuffix(s: string, suffix: string) {
    |suffix| <= |s| && s[|s| - |suffix|..] == suffix
  }

  /** Go's `strings.TrimPrefix`: drops `prefix` once when `s` starts with it. */
  function TrimPrefix(s: string, prefix: string): (r: string)
    ensures HasPrefix(s, prefix) ==> s == prefix + r
    ensures !HasPrefix(s, prefix) ==> r == s
  {
    if HasPrefix(s, prefix) then s[|prefix|..] else s
  }

  /** Go's `strings.Contains`: `sub` occurs somewhere in `s`. */
  predicate Contains(s: string, sub: string)
    decreases |s|
  {
    HasPrefix(s, sub) || (|s| > 0 && Contains(s[1..], sub))
  }

  /** An occurrence in a suffix is an occurrence in the whole string. */
  lemma {:induction false} ContainsSuffix(s: string, k: nat, sub: string)
    requires k <= |s|
    requires Contains(s[k..], sub)
    ensures Contains(s, sub)
    decreases k
  {
    if k > 0 {
      assert s[1..][k - 1..] == s[k..];
      ContainsSuffix(s[1..], k - 1, sub);
    }
  }

  /**
   Go's `<` on strings, which `sort.Strings` uses: lexicographic order on
   the characters. Comparing Unicode scalar values lexicographically orders
   strings exactly as comparing their UTF-8 bytes does.
   */
  predicate Less(a: string, b: string)
    decreases |a|
  {
    if |a| == 0 then |b| > 0
    else if |b| == 0 then false
    else a[0] < b[0] || (a[0] == b[0] && Less(a[1..], b[1..]))
  }

  lemma {:induction false} LessIrreflexive(a: string)
    ensures !Less(a, a)
    decreases |a|
  {
    if |a| > 0 {
      LessIrreflexive(a[1..]);
    }
  }

  lemma {:induction false} LessTransitive(a: string, b: string, c: string)
    requires Less(a, b) && Less(b, c)
    ensures Less(a, c)
    decreases |a|
  {
    if |a| > 0 && |b| > 0 && |c| > 0 && a[0] == b[0] == c[0] {
      LessTransitive(a[1..], b[1..], c[1..]);
    }
  }

  lemma {:induction false} LessTotal(a: string, b: string)
    requires a != b
    ensures Less(a, b) || Less(b, a)
    decreases |a|
  {
    if |a| > 0 && |b| > 0 && a[0] == b[0] {
      assert a == [a[0]] + a[1..] && b == [b[0]] + b[1..];
      LessTotal(a[1..], b[1..]);
    }
  }

  /** Strictly ascending in Go's string order; implies no duplicates. */
  ghost predicate StrictlySorted(s: seq<string>) {
    forall i, j :: 0 <= i < j < |s| ==> Less(s[i], s[j])
  }

  /** No element occurs twice. */
  ghost predicate Distinct<T>(s: seq<T>) {
    forall i, j :: 0 <= i < j < |s| ==> s[i] != s[j]
  }

  lemma StrictlySortedIsDistinct(s: seq<string>)
    requires StrictlySorted(s)
    ensures Distinct(s)
  {
    forall i, j | 0 <= i < j < |s|
      ensures s[i] != s[j]
    {
      LessIrreflexive(s[i]);
    }
  }

  /**
   Places `x` in a strictly sorted list; the step a sort performs for each
   element it receives.
   */
  function Insert(x: string, s: seq<string>): (r: seq<string>)
    requires StrictlySorted(s)
    requires x !in s
    ensures StrictlySorted(r)
    ensures |r| == |s| + 1
    ensures forall y :: y in r <==> y == x || y in s
    decreases |s|
  {
    if s == [] then [x]
    else if Less(x, s[0]) then
      assert forall j :: 0 < j < |s| ==> Less(x, s[j]) by {
        forall j | 0 < j < |s| ensures Less(x, s[j]) {
          LessTransitive(x, s[0], s[j]);
        }
      }
      [x] + s
    else
      LessTotal(x, s[0]);
      var rest := Insert(x, s[1..]);
      assert forall y :: y in rest ==> Less(s[0], y) by {
        forall y | y in rest ensures Less(s[0], y) {
          if y != x {
            var k :| 0 <= k < |s[1..]| && s[1..][k] == y;
            assert s[k + 1] == y;
          }
        }
      }
      [s[0]] + rest
  }

  /**
   Two strictly sorted lists holding the same strings are the same list:
   the sorted listing of a set does not depend on the order the set was
   visited in.
   */
  lemma {:induction false} SortedListingUnique(a: seq<string>, b: seq<string>)
    requires StrictlySorted(a) && StrictlySorted(b)
    requires forall y :: y in a <==> y in b
    ensures a == b
    decreases |a|
  {
    assert a != [] ==> a[0] in b;
    assert b != [] ==> b[0] in a;
    if a != [] && b != [] {
      if a[0] != b[0] {
        assert b[0] in a;
        var i :| 0 <= i < |a| && a[i] == b[0];
        assert a[0] in b;
        var j :| 0 <= j < |b| && b[j] == a[0];
        assert Less(a[0], a[i]) && Less(b[0], b[j]);
        LessTransitive(a[0], b[0], a[0]);
        LessIrreflexive(a[0]);
      }
      forall y ensures y in a[1..] <==> y in b[1..] {
        if y in a[1..] {
          var k :| 0 <= k < |a[1..]| && a[1..][k] == y;
          assert Less(a[0], a[k + 1]);
          LessIrreflexive(y);
          assert y in b;
        }
        if y in b[1..] {
          var k :| 0 <= k < |b[1..]| && b[1..][k] == y;
          assert Less(b[0], b[k + 1]);
          LessIrreflexive(y);
          assert y in a;
        }
      }
      SortedListingUnique(a[1..], b[1..]);
      assert a == [a[0]] + a[1..] && b == [b[0]] + b[1..];
    }
  }
}

=== FILE: config_types.dfy ===
/**
 The keyed map wrappers of `internal/config/types.go`: `Distributions`
 (name to distribution) and `Entitlements` (claim to list of names), each a
 map behind a read/write mutex. The mutex only serialises calls, so the
 operations are modelled one at a time on an immutable value; the stored
 `*Distribution` pointers are modelled as the values they point to.
 */
module ConfigTypes {
  import opened Common
  import Configuration

  /** One wrapper: the `entries` map of `Distributions` or `Entitlements`. */
  datatype KeyedMap<V> = KeyedMap(entries: map<string, V>) {

    /** `Get`: the stored value and whether the key was present. */
    function Get(key: string): (r: Option<V>)
      ensures r.Some? <==> key in entries
      ensures r.Some? ==> r.value == entries[key]
    {
      if key in entries then Some(entries[key]) else None
    }

    /** `Set`: afterwards `key` reads back `value`; every other key is unchanged. */
    function Set(key: string, value: V): (r: KeyedMap<V>)
      ensures r.Get(key) == Some(value)
      ensures forall k :: k != key ==> r.Get(k) == Get(k)
    {
      KeyedMap(entries[key := value])
    }

    /** `Delete`: afterwards `key` is absent; every other key is unchanged. */
    function Delete(key: string): (r: KeyedMap<V>)
      ensures r.Get(key) == None
      ensures forall k :: k != key ==> r.Get(k) == Get(k)
    {
      KeyedMap(entries - {key})
    }

    /**
     `Names`: every key exactly once and nothing else, in Go's map order,
     which is left unspecified here.
     */
    method Names() returns (names: seq<string>)
      ensures forall k :: k in names <==> Get(k).Some?
      ensures Distinct(names)
      ensures |names| == |entries|
    {
      names := [];
      var remaining := entries.Keys;
      while remaining != {}
        invariant remaining <= entries.Keys
        invariant forall k :: k in names <==> k in entries && k !in remaining
        invariant Distinct(names)
        invariant |names| + |remaining| == |entries|
        decreases remaining
      {
        var k :| k in remaining;
        names := names + [k];
        remaining := remaining - {k};
      }
    }
  }

  type Distributions = KeyedMap<Configuration.Distribution>
  type Entitlements = KeyedMap<seq<string>>

  datatype Config = Config(distributions: Distributions, entitlements: Entitlements)

  /** `New`: both wrappers start out empty. */
  function New(): (c: Config)
    ensures forall k :: c.distributions.Get(k) == None && c.entitlements.Get(k) == None
  {
    Config(KeyedMap(map[]), KeyedMap(map[]))
  }

  /** One mutating call on a wrapper. */
  datatype Update<V> = SetOp(k: string, v: V) | DeleteOp(k: string)

  /** The wrapper after the calls `us`, made in order. */
  function Apply<V>(m: KeyedMap<V>, us: seq<Update<V>>): KeyedMap<V>
    decreases |us|
  {
    if us == [] then m
    else
      var prev := Apply(m, us[..|us| - 1]);
      match us[|us| - 1]
      case SetOp(k, v) => prev.Set(k, v)
      case DeleteOp(k) => prev.Delete(k)
  }

  /**
   The reference reading of `key` after `us`: the last call on `key`
   decides, and with none the original reading stands.
   */
  function LastFor<V>(m: KeyedMap<V>, us: seq<Update<V>>, key: string): Option<V>
    decreases |us|
  {
    if us == [] then m.Get(key)
    else
      var u := us[|us| - 1];
      if u.k != key then LastFor(m, us[..|us| - 1], key)
      else if u.SetOp? then Some(u.v)
      else None
  }

  /**
   Reading a key back after any series of `Set` and `Delete` calls shows the
   last call on that key; calls on other keys are invisible.
   */
  lemma {:induction false} LastWriteWins<V>(m: KeyedMap<V>, us: seq<Update<V>>, key: string)
    ensures Apply(m, us).Get(key) == LastFor(m, us, key)
    decreases |us|
  {
    if us != [] {
      LastWriteWins(m, us[..|us| - 1], key);
    }
  }
}

=== FILE: configuration.dfy ===
/**
 The configuration store of `internal/config/config.go`: distribution name
 to (ID, Prefix), and claim to a list of distribution names, both held as
 already-decoded immutable maps. Reading the file and decoding YAML are not
 modelled; a document arrives decoded, or not at all.
 */
module Configuration {
  import opened Common

  datatype Distribution = Distribution(id: string, prefix: string)

  type Distributions = map<string, Distribution>
  type Entitlements = map<string, seq<string>>

  /** The live state of a `Config`. */
  datatype Config = Config(distributions: Distributions, entitlements: Entitlements)

  /** A decoded configuration document. */
  datatype Document = Document(distributions: Distributions, entitlements: Entitlements)

  datatype ConfigError =
    | DuplicatedValue(id: string, prefix: string)
    | Undecodable

  const DuplicatedText := "error parsing configuration: distribution value duplicated id:"

  /**
   The error's text, as `fmt.Errorf` renders it: the fixed text, then the
   ID straight after `id:` and the prefix straight after `prefix:`.
   */
  function ErrorMessage(e: ConfigError): (r: string)
    requires e.DuplicatedValue?
    ensures HasPrefix(r, DuplicatedText + e.id)
    ensures HasSuffix(r, " prefix:" + e.prefix)
    ensures |r| == |DuplicatedText| + |e.id| + |" prefix:"| + |e.prefix|
  {
    DuplicatedText + e.id + " prefix:" + e.prefix
  }

  /**
   The duplicate in the configuration test (ID `123`, prefix `/foo`) is
   reported without spaces after the colons, unlike the text that test expects.
   */
  lemma DuplicateMessageExample()
    ensures ErrorMessage(DuplicatedValue("123", "/foo"))
            == "error parsing configuration: distribution value duplicated id:123 prefix:/foo"
    ensures ErrorMessage(DuplicatedValue("123", "/foo"))
            != "error parsing configuration: distribution value duplicated id: 123 prefix: /foo"
  {
    var m := ErrorMessage(DuplicatedValue("123", "/foo"));
    assert m[|DuplicatedText|] == '1';
  }

  /** No two distinct names share the same (ID, Prefix) value. */
  ghost predicate ValuesUnique(ds: Distributions) {
    forall a, b :: a in ds && b in ds && a != b ==> ds[a] != ds[b]
  }

  /** `value` is held by two distinct names. */
  ghost predicate Duplicated(ds: Distributions, value: Distribution) {
    exists a, b :: a in ds && b in ds && a != b && ds[a] == value && ds[b] == value
  }

  /**
   `validateDistributions`: visits the entries in an unspecified order (Go's
   map order, here an arbitrary choice) and fails on the first value already
   seen. Fails exactly when two names share a value, and then names that value.
   */
  method ValidateDistributions(ds: Distributions) returns (err: Option<ConfigError>)
    ensures err.None? <==> ValuesUnique(ds)
    ensures err.Some? ==> err.value.DuplicatedValue?
    ensures err.Some? ==> Duplicated(ds, Distribution(err.value.id, err.value.prefix))
  {
    var unique: set<Distribution> := {};
    ghost var owner: map<Distribution, string> := map[];
    var remaining := ds.Keys;
    while remaining != {}
      invariant remaining <= ds.Keys
      invariant unique == owner.Keys
      invariant forall v :: v in owner ==> owner[v] in ds && owner[v] !in remaining && ds[owner[v]] == v
      invariant forall k :: k in ds && k !in remaining ==> ds[k] in unique
      invariant forall a, b :: a in ds && b in ds && a !in remaining && b !in remaining && a != b ==> ds[a] != ds[b]
      decreases remaining
    {
      var name :| name in remaining;
      var value := ds[name];
      if value in unique {
        assert owner[value] != name;
        return Some(DuplicatedValue(value.id, value.prefix));
      }
      unique := unique + {value};
      owner := owner[value := name];
      remaining := remaining - {name};
    }
    return None;
  }

  /**
   `parse`: once the document decodes, both live maps are replaced BEFORE
   validation, so a document that fails validation still replaces the
   state. Only a decoding failure leaves the state untouched.
   */
  method Parse(c: Config, doc: Option<Document>) returns (c': Config, err: Option<ConfigError>)
    ensures doc.None? ==> c' == c && err == Some(Undecodable)
    ensures doc.Some? ==> c'.distributions == doc.value.distributions
    ensures doc.Some? ==> c'.entitlements == doc.value.entitlements
    ensures doc.Some? ==> (err.None? <==> ValuesUnique(doc.value.distributions))
    ensures doc.Some? && err.Some? ==> err.value.DuplicatedValue?
  {
    if doc.None? {
      return c, Some(Undecodable);
    }
    c' := Config(doc.value.distributions, doc.value.entitlements);
    err := ValidateDistributions(c'.distributions);
  }

  // -----------------------------------------------------------------------
  // Resolving claims to distributions

  /** `claim` lists `name` in the entitlements. */
  ghost predicate Lists(c: Config, claim: string, name: string) {
    claim in c.entitlements && name in c.entitlements[claim]
  }

  /** Some claim in `claims` lists `name`, and `name` is a configured distribution. */
  ghost predicate Granted(c: Config, claims: seq<string>, name: string) {
    name in c.distributions && exists claim :: claim in claims && Lists(c, claim, name)
  }

  /**
   The loop of `claimDistributions` over one claim's list, left to right:
   names missing from `ds` are skipped, the rest copied with their values.
   */
  function ListedDistributions(names: seq<string>, ds: Distributions): (r: Distributions)
    ensures forall n :: n in r <==> n in names && n in ds
    ensures forall n :: n in r ==> r[n] == ds[n]
    decreases |names|
  {
    if names == [] then map[]
    else
      var last := names[|names| - 1];
      var acc := ListedDistributions(names[..|names| - 1], ds);
      assert forall n :: n in names <==> n in names[..|names| - 1] || n == last;
      if last in ds then acc[last := ds[last]] else acc
  }

  /**
   `claimDistributions`: exactly the names the claim lists that are
   configured, each with its configured value. Dangling names are dropped,
   and an unknown claim yields the empty map.
   */
  function ClaimDistributions(c: Config, claim: string): (r: Distributions)
    ensures forall n :: n in r <==> Lists(c, claim, n) && n in c.distributions
    ensures forall n :: n in r ==> r[n] == c.distributions[n]
    ensures claim !in c.entitlements ==> r == map[]
  {
    if claim in c.entitlements then ListedDistributions(c.entitlements[claim], c.distributions)
    else map[]
  }

  /**
   `claimsDistributions`: the union of `claimDistributions` over the claims,
   folded left to right as the source loop does.
   */
  function ClaimsDistributions(c: Config, claims: seq<string>): (r: Distributions)
    ensures forall n :: n in r <==> Granted(c, claims, n)
    ensures forall n :: n in r ==> n in c.distributions && r[n] == c.distributions[n]
    decreases |claims|
  {
    if claims == [] then map[]
    else
      var init := claims[..|claims| - 1];
      var last := claims[|claims| - 1];
      var acc := ClaimsDistributions(c, init);
      var add := ClaimDistributions(c, last);
      assert forall cl :: cl in claims <==> cl in init || cl == last;
      acc + add
  }

  /**
   The union does not depend on the order of the claims or on repeats:
   two claim lists with the same members resolve to the same map. With no
   claims it is empty.
   */
  lemma ClaimsOrderIrrelevant(c: Config, xs: seq<string>, ys: seq<string>)
    requires forall cl :: cl in xs <==> cl in ys
    ensures ClaimsDistributions(c, xs) == ClaimsDistributions(c, ys)
    ensures ClaimsDistributions(c, []) == map[]
  {
    SameClaimsSameGrants(c, xs, ys);
    SameEntitledSameMap(c.distributions, ClaimsDistributions(c, xs), ClaimsDistributions(c, ys));
  }

  /** Two sub-maps of `ds` with the same keys are equal. */
  lemma SameEntitledSameMap(ds: Distributions, a: Distributions, b: Distributions)
    requires forall n :: n in a <==> n in b
    requires forall n :: n in a ==> n in ds && a[n] == ds[n]
    requires forall n :: n in b ==> n in ds && b[n] == ds[n]
    ensures a == b
  {
    assert a.Keys == b.Keys;
  }

  lemma SameClaimsSameGrants(c: Config, xs: seq<string>, ys: seq<string>)
    requires forall cl :: cl in xs <==> cl in ys
    ensures forall n :: Granted(c, xs, n) <==> Granted(c, ys, n)
  {
    forall n | Granted(c, xs, n) ensures Granted(c, ys, n) {
      var cl :| cl in xs && Lists(c, cl, n);
      assert cl in ys;
    }
    forall n | Granted(c, ys, n) ensures Granted(c, xs, n) {
      var cl :| cl in ys && Lists(c, cl, n);
      assert cl in xs;
    }
  }

  /** The resolved map of a list of claims is the union over each claim. */
  lemma ClaimsDistributionsIsUnion(c: Config, claims: seq<string>, name: string)
    ensures name in ClaimsDistributions(c, claims) <==>
              exists claim :: claim in claims && name in ClaimDistributions(c, claim)
  {
    if name in ClaimsDistributions(c, claims) {
      var claim :| claim in claims && Lists(c, claim, name);
      assert name in ClaimDistributions(c, claim);
    }
  }

  /**
   `ClaimsDistributionNames`: the entitled names, sorted with Go's string
   order. The names are gathered in map order, which this method leaves
   unspecified; each is put in its sorted place, so the result does not
   depend on that order (see `SortedListingUnique`).
   */
  method ClaimsDistributionNames(c: Config, claims: seq<string>) returns (names: seq<string>)
    ensures StrictlySorted(names) && Distinct(names)
    ensures forall n :: n in names <==> Granted(c, claims, n)
    ensures |names| == |ClaimsDistributions(c, claims)|
  {
    var distros := ClaimsDistributions(c, claims);
    var remaining := distros.Keys;
    names := [];
    while remaining != {}
      invariant remaining <= distros.Keys
      invariant StrictlySorted(names)
      invariant forall n :: n in names <==> n in distros && n !in remaining
      invariant |names| + |remaining| == |distros.Keys|
      decreases remaining
    {
      var name :| name in remaining;
      names := Insert(name, names);
      remaining := remaining - {name};
    }
    StrictlySortedIsDistinct(names);
  }

  /**
   `ClaimsDistribution`: the configured entry when the claims are entitled
   to `name`, otherwise the zero `Distribution{}`.
   */
  function ClaimsDistribution(c: Config, claims: seq<string>, name: string): (r: Distribution)
    ensures Granted(c, claims, name) ==> r == c.distributions[name]
    ensures !Granted(c, claims, name) ==> r == Distribution("", "")
  {
    var distros := ClaimsDistributions(c, claims);
    if name in distros then distros[name] else Distribution("", "")
  }

  // -----------------------------------------------------------------------
  // The accessors the service calls (a later revision of this file)

  /** `DistributionsFromClaims`: the names of the claims' resolved map. */
  function DistributionsFromClaims(c: Config, claims: seq<string>): (r: set<string>)
    ensures forall n :: n in r <==> Granted(c, claims, n)
  {
    ClaimsDistributions(c, claims).Keys
  }

  /** `Distribution(name)`: the configured entry, or nothing. */
  function LookupDistribution(c: Config, name: string): (r: Option<Distribution>)
    ensures r.Some? <==> name in c.distributions
    ensures r.Some? ==> r.value == c.distributions[name]
  {
    if name in c.distributions then Some(c.distributions[name]) else None
  }

  // -----------------------------------------------------------------------
  // The example configuration used throughout the source tests

  function ExampleConfig(): Config {
    Config(
      map["dis1" := Distribution("123", "/foo"), "dis2" := Distribution("456", "/bar")],
      map["grp1" := ["dis1", "dis2"], "grp2" := ["dis2"]])
  }

  /** `grp1` is entitled to both distributions, `grp2` to `dis2` only. */
  lemma ExampleEntitlements()
    ensures DistributionsFromClaims(ExampleConfig(), ["grp1"]) == {"dis1", "dis2"}
    ensures DistributionsFromClaims(ExampleConfig(), ["grp2"]) == {"dis2"}
    ensures DistributionsFromClaims(ExampleConfig(), ["grp3"]) == {}
  {
    var c := ExampleConfig();
    assert Lists(c, "grp1", "dis1") && Lists(c, "grp1", "dis2") && Lists(c, "grp2", "dis2");
    assert "grp1" in ["grp1"];
    assert Granted(c, ["grp1"], "dis1");
    assert Granted(c, ["grp1"], "dis2");
    assert Granted(c, ["grp2"], "dis2") by { assert "grp2" in ["grp2"]; }
    assert !Granted(c, ["grp2"], "dis1");
  }
}

=== FILE: distribution_service.dfy ===
/**
 Claims carried by a request (`internal/core/core.go`): the middleware
 stores a list of strings under a well-known context key; a missing or
 differently typed value reads as no claims.
 */
module Core {
  import opened Common

  /** The context's claims value: `Some` when a `[]string` is stored. */
  type Context = Option<seq<string>>

  /** `GetClaims`. */
  function GetClaims(ctx: Context): (claims: seq<string>)
    ensures ctx.None? ==> claims == []
    ensures ctx.Some? ==> claims == ctx.value
  {
    match ctx
    case Some(cs) => cs
    case None => []
  }
}

/**
 The distribution service of `internal/core/v1beta1/distribution_service.go`:
 authorises a caller's claims against the configuration, rewrites paths
 under the distribution's prefix, and hands over to the CDN client.

 The CDN client is a parameter: a function from the call the service makes
 to that call's outcome. Every result records the CDN call made, if any,
 so that "no call was made" can be stated.
 */
module DistributionService {
  import opened Common
  import opened Configuration
  import opened InvalidationErrors
  import GoPath
  import Core

  /** `v1beta1.Distribution`: the entry a listing reports. */
  datatype ListedDistribution = ListedDistribution(distributionId: string, pathPrefix: string)

  /** `time.Time`, treated as an opaque value. */
  datatype Timestamp = Timestamp(nanos: int)

  datatype InvalidationResponse = InvalidationResponse(
    status: string, id: string, created: Timestamp, paths: seq<string>)

  /** A request to the CDN client. */
  datatype CdnCall =
    | CreateCall(distributionId: string, paths: seq<string>)
    | GetCall(distributionId: string, invalidationId: string)

  /** The CDN client's answer. */
  datatype CdnResult =
    | CdnOk(invalidationId: string, status: string, created: Timestamp, paths: seq<string>)
    | CdnErr(err: Error)

  /** A service result together with the CDN call it made, if any. */
  datatype Outcome<T> = Outcome(result: Result<T, Error>, call: Option<CdnCall>)

  const NoClaimsError: Error := Message("no claims present")

  /**
   `getDistribution`: no claims is a plain error before any lookup; an
   unknown name is 404, checked before entitlement; a known name the
   claims do not grant is 403; otherwise the configured entry.
   */
  function GetDistribution(c: Config, ctx: Core.Context, name: string): (r: Result<Distribution, Error>)
    ensures Core.GetClaims(ctx) == [] ==> r == Err(NoClaimsError)
    ensures Core.GetClaims(ctx) != [] && name !in c.distributions ==>
              r.Err? && ErrorResourceNotFound(r.error) && r.error.Invalidation?
              && r.error.ierr.status == Some("Resource not found: " + name)
    ensures Core.GetClaims(ctx) != [] && name in c.distributions && !Granted(c, Core.GetClaims(ctx), name) ==>
              r.Err? && ErrorIsUnauthorized(r.error) && r.error.Invalidation?
              && r.error.ierr.status == Some("User is not entitled to invalidate distribution: " + name)
    ensures r.Ok? <==> Core.GetClaims(ctx) != [] && Granted(c, Core.GetClaims(ctx), name)
    ensures r.Ok? ==> r.value == c.distributions[name]
  {
    var claims := Core.GetClaims(ctx);
    if |claims| == 0 then Err(NoClaimsError)
    else match LookupDistribution(c, name)
      case None =>
        Err(NewInvalidationError(ResourceNotFoundErrorCode,
                                 Some(Message("distribution " + name + " not found")), StringArg(name)))
      case Some(d) =>
        if name !in DistributionsFromClaims(c, claims) then
          Err(NewInvalidationError(InvalidationUnauthorizedErrorCode,
                                   Some(Message("distribution unauthorized")), StringArg(name)))
        else Ok(d)
  }

  /**
   `List`: no claims is the plain error; otherwise exactly the entitled
   names with their ID and prefix. Claims that match nothing give an empty
   map, not an error.
   */
  function List(c: Config, ctx: Core.Context): (r: Result<map<string, ListedDistribution>, Error>)
    ensures Core.GetClaims(ctx) == [] <==> r == Err(NoClaimsError)
    ensures Core.GetClaims(ctx) != [] ==> r.Ok?
    ensures r.Ok? ==> forall n :: n in r.value <==> Granted(c, Core.GetClaims(ctx), n)
    ensures r.Ok? ==> forall n :: n in r.value ==>
              n in c.distributions
              && r.value[n] == ListedDistribution(c.distributions[n].id, c.distributions[n].prefix)
  {
    var claims := Core.GetClaims(ctx);
    if |claims| == 0 then Err(NoClaimsError)
    else
      var names := DistributionsFromClaims(c, claims);
      Ok(map n | n in names :: ListedDistribution(c.distributions[n].id, c.distributions[n].prefix))
  }

  /** The guard of `CreateInvalidation`: the path holds the substring `../`. */
  predicate ClimbsUp(p: string) {
    Contains(p, "../")
  }

  /**
   The path loop of `CreateInvalidation`: fails at the first path that
   holds `../`; otherwise every path joined onto the prefix, in order.
   */
  function PrefixPaths(prefix: string, paths: seq<string>): (r: Option<seq<string>>)
    ensures r.Some? <==> forall i :: 0 <= i < |paths| ==> !ClimbsUp(paths[i])
    ensures r.Some? ==> |r.value| == |paths|
    ensures r.Some? ==> forall i :: 0 <= i < |paths| ==> r.value[i] == GoPath.Join(prefix, paths[i])
    decreases |paths|
  {
    if paths == [] then Some([])
    else if ClimbsUp(paths[0]) then None
    else match PrefixPaths(prefix, paths[1..])
      case None => None
      case Some(rest) => Some([GoPath.Join(prefix, paths[0])] + rest)
  }

  const InvalidPathError: Error :=
    NewInvalidationError(InternalServerError, Some(Message("invalid path")),
                         ErrorArg(Message("path cannot contain ../")))

  /** The response built from a CDN success, every field copied through. */
  function Respond(res: CdnResult): InvalidationResponse
    requires res.CdnOk?
  {
    InvalidationResponse(res.status, res.invalidationId, res.created, res.paths)
  }

  /**
   `CreateInvalidation`: authorises as `getDistribution`, rejects the whole
   batch with code 500 if any path holds `../`, otherwise makes exactly one
   CDN call with the distribution's ID and the joined paths. A CDN failure
   is wrapped as code 500; a success is copied through unchanged.
   */
  function CreateInvalidation(c: Config, ctx: Core.Context, name: string, paths: seq<string>,
                              cdn: CdnCall -> CdnResult): (r: Outcome<InvalidationResponse>)
    ensures GetDistribution(c, ctx, name).Err? ==>
              r == Outcome(Err(GetDistribution(c, ctx, name).error), None)
    ensures GetDistribution(c, ctx, name).Ok? && (exists i :: 0 <= i < |paths| && ClimbsUp(paths[i])) ==>
              r == Outcome(Err(InvalidPathError), None)
    ensures r.call.Some? <==>
              GetDistribution(c, ctx, name).Ok? && forall i :: 0 <= i < |paths| ==> !ClimbsUp(paths[i])
    ensures r.call.Some? ==>
              && r.call.value.CreateCall?
              && r.call.value.distributionId == c.distributions[name].id
              && |r.call.value.paths| == |paths|
              && (forall i :: 0 <= i < |paths| ==>
                    r.call.value.paths[i] == GoPath.Join(c.distributions[name].prefix, paths[i]))
    ensures r.call.Some? && cdn(r.call.value).CdnErr? ==>
              r.result.Err? && r.result.error.Invalidation? && r.result.error.ierr.code == InternalServerError
              && Unwrap(r.result.error.ierr) == Some(Message("cloudfront CreateInvalidation failed"))
    ensures r.call.Some? && cdn(r.call.value).CdnOk? ==>
              r.result == Ok(InvalidationResponse(cdn(r.call.value).status, cdn(r.call.value).invalidationId,
                                                  cdn(r.call.value).created, cdn(r.call.value).paths))
  {
    match GetDistribution(c, ctx, name)
    case Err(e) => Outcome(Err(e), None)
    case Ok(d) =>
      match PrefixPaths(d.prefix, paths)
      case None => Outcome(Err(InvalidPathError), None)
      case Some(distributionPaths) =>
        var call := CreateCall(d.id, distributionPaths);
        var res := cdn(call);
        if res.CdnErr? then
          Outcome(Err(NewInvalidationError(InternalServerError,
                                           Some(Message("cloudfront CreateInvalidation failed")),
                                           ErrorArg(res.err))), Some(call))
        else Outcome(Ok(Respond(res)), Some(call))
  }

  /**
   `GetInvalidationStatus`: the same authorisation, then one CDN status
   query for the distribution's ID; no path checks apply.
   */
  function GetInvalidationStatus(c: Config, ctx: Core.Context, name: string, invalidationId: string,
                                 cdn: CdnCall -> CdnResult): (r: Outcome<InvalidationResponse>)
    ensures GetDistribution(c, ctx, name).Err? ==>
              r == Outcome(Err(GetDistribution(c, ctx, name).error), None)
    ensures GetDistribution(c, ctx, name).Ok? ==>
              r.call == Some(GetCall(c.distributions[name].id, invalidationId))
    ensures r.call.Some? && cdn(r.call.value).CdnErr? ==>
              r.result.Err? && r.result.error.Invalidation? && r.result.error.ierr.code == InternalServerError
              && Unwrap(r.result.error.ierr) == Some(Message("cloudfront GetInvalidation failed"))
    ensures r.call.Some? && cdn(r.call.value).CdnOk? ==>
              r.result == Ok(InvalidationResponse(cdn(r.call.value).status, cdn(r.call.value).invalidationId,
                                                  cdn(r.call.value).created, cdn(r.call.value).paths))
  {
    match GetDistribution(c, ctx, name)
    case Err(e) => Outcome(Err(e), None)
    case Ok(d) =>
      var call := GetCall(d.id, invalidationId);
      var res := cdn(call);
      if res.CdnErr? then
        Outcome(Err(NewInvalidationError(InternalServerError,
                                         Some(Message("cloudfront GetInvalidation failed")),
                                         ErrorArg(res.err))), Some(call))
      else Outcome(Ok(Respond(res)), Some(call))
  }

  // -----------------------------------------------------------------------
  // Prefix confinement

  /** In the example configuration, claim `grp1` is granted `dis1`. */
  lemma ExampleGrp1GetsDis1()
    ensures GetDistribution(ExampleConfig(), Some(["grp1"]), "dis1") == Ok(Distribution("123", "/foo"))
  {
    var c := ExampleConfig();
    assert Lists(c, "grp1", "dis1") && "grp1" in ["grp1"];
    assert Granted(c, ["grp1"], "dis1");
  }

  /**
   As written, the `../` guard is not enough to stay under the prefix: the
   path `/..` holds no `../`, passes, and is submitted as `/`, the root of
   the distribution, above the prefix `/foo`.
   */
  lemma TrailingDotDotEscapesPrefix(cdn: CdnCall -> CdnResult)
    ensures var r := CreateInvalidation(ExampleConfig(), Some(["grp1"]), "dis1", ["/.."], cdn);
            r.call == Some(CreateCall("123", ["/"]))
            && !GoPath.Under(GoPath.Clean("/foo"), "/")
  {
    ExampleGrp1GetsDis1();
    GoPath.JoinClimbsOutExample();
    assert !ClimbsUp(["/.."][0]);
    var pp := PrefixPaths("/foo", ["/.."]);
    assert pp.Some? && |pp.value| == 1 && pp.value[0] == "/";
    assert pp.value == ["/"];
  }

  /**
   What the guard does buy: when no submitted path is `..` or ends in
   `/..`, every path sent to the CDN names the prefix or lies below it.
   */
  lemma CreateInvalidationConfinedWhen(c: Config, ctx: Core.Context, name: string, paths: seq<string>,
                                       cdn: CdnCall -> CdnResult)
    requires name in c.distributions && GoPath.Rooted(c.distributions[name].prefix)
    requires forall i :: 0 <= i < |paths| ==> paths[i] != ".." && !HasSuffix(paths[i], "/..")
    ensures var r := CreateInvalidation(c, ctx, name, paths, cdn);
            r.call.Some? ==> forall q :: q in r.call.value.paths ==>
              GoPath.Under(GoPath.Clean(c.distributions[name].prefix), q)
  {
    var r := CreateInvalidation(c, ctx, name, paths, cdn);
    var prefix := c.distributions[name].prefix;
    if r.call.Some? {
      forall q | q in r.call.value.paths
        ensures GoPath.Under(GoPath.Clean(prefix), q)
      {
        var i :| 0 <= i < |r.call.value.paths| && r.call.value.paths[i] == q;
        assert GoPath.ClimbsFree(paths[i]);
        GoPath.ClimbsFreeHasNoDotDot(paths[i]);
        GoPath.JoinConfined(prefix, paths[i]);
      }
    }
  }

  /**
   As written, an empty batch is not rejected: it reaches the CDN client as
   an invalidation of no paths.
   */
  lemma EmptyPathsReachCdn(cdn: CdnCall -> CdnResult)
    ensures CreateInvalidation(ExampleConfig(), Some(["grp1"]), "dis1", [], cdn).call
            == Some(CreateCall("123", []))
  {
    ExampleGrp1GetsDis1();
  }

  /** The guard evidently intended: the path could climb out of the prefix. */
  predicate ClimbsOut(p: string) {
    !GoPath.ClimbsFree(p)
  }

  const NoPathsError: Error :=
    NewInvalidationError(InternalServerError, Some(Message("invalid path")),
                         ErrorArg(Message("must provide at least one path")))

  /**
   `CreateInvalidation` as its comment and tests intend: an empty batch is
   rejected, and so is any path that holds `../`, is `..` or ends in `/..`.
   Everything else is as written, and every path the CDN receives lies
   under the distribution's (rooted) prefix.
   */
  function CreateInvalidationConfined(c: Config, ctx: Core.Context, name: string, paths: seq<string>,
                                      cdn: CdnCall -> CdnResult): (r: Outcome<InvalidationResponse>)
    ensures GetDistribution(c, ctx, name).Err? ==>
              r == Outcome(Err(GetDistribution(c, ctx, name).error), None)
    ensures GetDistribution(c, ctx, name).Ok? && paths == [] ==> r == Outcome(Err(NoPathsError), None)
    ensures GetDistribution(c, ctx, name).Ok? && paths != [] && (exists i :: 0 <= i < |paths| && ClimbsOut(paths[i])) ==>
              r == Outcome(Err(InvalidPathError), None)
    ensures r.call.Some? <==>
              GetDistribution(c, ctx, name).Ok? && paths != [] && forall i :: 0 <= i < |paths| ==> !ClimbsOut(paths[i])
    ensures r.call.Some? ==> r == CreateInvalidation(c, ctx, name, paths, cdn)
    ensures r.call.Some? && name in c.distributions && GoPath.Rooted(c.distributions[name].prefix) ==>
              r.call.value.paths != []
              && forall q :: q in r.call.value.paths ==> GoPath.Under(GoPath.Clean(c.distributions[name].prefix), q)
  {
    match GetDistribution(c, ctx, name)
    case Err(e) => Outcome(Err(e), None)
    case Ok(d) =>
      if paths == [] then Outcome(Err(NoPathsError), None)
      else if exists i :: 0 <= i < |paths| && ClimbsOut(paths[i]) then Outcome(Err(InvalidPathError), None)
      else if GoPath.Rooted(d.prefix) then
        CreateInvalidationConfinedWhen(c, ctx, name, paths, cdn);
        CreateInvalidation(c, ctx, name, paths, cdn)
      else CreateInvalidation(c, ctx, name, paths, cdn)
  }

  /** The corrected service turns away the inputs the as-written one lets through. */
  lemma ConfinedRejectsEscapes(cdn: CdnCall -> CdnResult)
    ensures CreateInvalidationConfined(ExampleConfig(), Some(["grp1"]), "dis1", ["/.."], cdn)
            == Outcome(Err(InvalidPathError), None)
    ensures CreateInvalidationConfined(ExampleConfig(), Some(["grp1"]), "dis1", [], cdn)
            == Outcome(Err(NoPathsError), None)
  {
    ExampleGrp1GetsDis1();
    assert HasSuffix("/..", "/..");
    assert ClimbsOut(["/.."][0]);
  }

  // -----------------------------------------------------------------------
  // The scenarios of the service tests

  /** The refusals for the example configuration: unknown name, ungranted claim, no claims. */
  lemma GetDistributionExamples()
    ensures ErrorResourceNotFound(GetDistribution(ExampleConfig(), Some(["grp1"]), "dis3").error)
    ensures ErrorIsUnauthorized(GetDistribution(ExampleConfig(), Some(["grp2"]), "dis1").error)
    ensures GetDistribution(ExampleConfig(), None, "dis1") == Err(NoClaimsError)
    ensures GetDistribution(ExampleConfig(), Some(["grp1"]), "dis3")
            == Err(NewInvalidationError(ResourceNotFoundErrorCode,
                                        Some(Message("distribution dis3 not found")), StringArg("dis3")))
    ensures GetDistribution(ExampleConfig(), Some(["grp2"]), "dis1")
            == Err(NewInvalidationError(InvalidationUnauthorizedErrorCode,
                                        Some(Message("distribution unauthorized")), StringArg("dis1")))
  {
    assert !Granted(ExampleConfig(), ["grp2"], "dis1");
    assert "distribution " + "dis3" + " not found" == "distribution dis3 not found";
  }

  /** Listing: empty claims are the plain error; claims matching nothing list nothing. */
  lemma ListExamples()
    ensures List(ExampleConfig(), Some([])) == Err(NoClaimsError)
    ensures List(ExampleConfig(), Some(["grp3"])) == Ok(map[])
  {
    var r := List(ExampleConfig(), Some(["grp3"]));
    assert forall n :: !Granted(ExampleConfig(), ["grp3"], n);
    assert r.Ok? && r.value.Keys == {};
  }

  // Paths are put under the prefix one for one: the wildcard path under `/foo` is `/foo/` plus the wildcard.
  lemma CreateInvalidationExample(cdn: CdnCall -> CdnResult)
    ensures CreateInvalidation(ExampleConfig(), Some(["grp1"]), "dis1", ["/*"], cdn).call
            == Some(CreateCall("123", ["/foo/*"]))
  {
    ExampleGrp1GetsDis1();
    GoPath.JoinUnderPrefixExample();
    assert !HasPrefix("/*", "../") && "/*"[1..] == "*" && !HasPrefix("*", "../") && "*"[1..] == "";
    assert !ClimbsUp(["/*"][0]);
    var pp := PrefixPaths("/foo", ["/*"]);
    assert pp.Some? && |pp.value| == 1 && pp.value[0] == "/foo/*";
    assert pp.value == ["/foo/*"];
  }
}

=== FILE: entitlements.dfy ===
/**
 `GetEntitlements` of `internal/config/entitlements.go` (an older revision
 of the config package, with its own field names): the ordered union of
 the distributions listed under the given boundaries (claims), without
 repeating a name. A listed name with no configured distribution still
 contributes Go's zero value, since the source reads the map unguarded.
 */
module Entitlements {
  import opened Common

  datatype Entitlement = Entitlement(distributionId: string, prefix: string)

  datatype Config = Config(
    entitlements: map<string, seq<string>>,
    vanityDistributions: map<string, Entitlement>)

  /** `c.VanityDistrbutions[v]`: the configured entry, or the zero value. */
  function Lookup(c: Config, name: string): Entitlement {
    if name in c.vanityDistributions then c.vanityDistributions[name] else Entitlement("", "")
  }

  /** The lists of the known boundaries, concatenated in boundary order. */
  function Matched(c: Config, boundaries: seq<string>): seq<string>
    decreases |boundaries|
  {
    if boundaries == [] then []
    else (if boundaries[0] in c.entitlements then c.entitlements[boundaries[0]] else [])
         + Matched(c, boundaries[1..])
  }

  /** Each element the first time it occurs, skipping those in `used`. */
  function FirstOccurrences(xs: seq<string>, used: set<string>): seq<string>
    decreases |xs|
  {
    if xs == [] then []
    else if xs[0] in used then FirstOccurrences(xs[1..], used)
    else [xs[0]] + FirstOccurrences(xs[1..], used + {xs[0]})
  }

  /** The reference result: the values of the first occurrences of the matched names. */
  function EntitledNames(c: Config, boundaries: seq<string>): seq<string> {
    FirstOccurrences(Matched(c, boundaries), {})
  }

  function Values(c: Config, names: seq<string>): (r: seq<Entitlement>)
    ensures |r| == |names|
    ensures forall i :: 0 <= i < |names| ==> r[i] == Lookup(c, names[i])
  {
    seq(|names|, i requires 0 <= i < |names| => Lookup(c, names[i]))
  }

  lemma ValuesAppend(c: Config, names: seq<string>, v: string)
    ensures Values(c, names + [v]) == Values(c, names) + [Lookup(c, v)]
  {
  }

  /** One step of the scan: the next name is kept exactly when it is not yet used. */
  lemma {:induction false} FirstOccurrencesStep(names: seq<string>, x: string, xs: seq<string>, tail: seq<string>, used: set<string>)
    ensures names + FirstOccurrences([x] + xs + tail, used)
            == (if x in used then names else names + [x])
               + FirstOccurrences(xs + tail, if x in used then used else used + {x})
  {
    assert ([x] + xs + tail)[0] == x;
    assert ([x] + xs + tail)[1..] == xs + tail;
  }

  /**
   `GetEntitlements`: scans the boundaries left to right and each known
   boundary's list in order, appending the entry of every name not seen
   before. The result is the values of `EntitledNames`.
   */
  method GetEntitlements(c: Config, boundaries: seq<string>) returns (es: seq<Entitlement>)
    ensures es == Values(c, EntitledNames(c, boundaries))
  {
    es := [];
    var used: set<string> := {};
    ghost var names: seq<string> := [];
    var i := 0;
    while i < |boundaries|
      invariant 0 <= i <= |boundaries|
      invariant es == Values(c, names)
      invariant names + FirstOccurrences(Matched(c, boundaries[i..]), used) == EntitledNames(c, boundaries)
      decreases |boundaries| - i
    {
      var g := boundaries[i];
      ghost var later := Matched(c, boundaries[i + 1..]);
      assert Matched(c, boundaries[i..]) == (if g in c.entitlements then c.entitlements[g] else []) + later by {
        assert boundaries[i..][1..] == boundaries[i + 1..];
      }
      if g in c.entitlements {
        var vanityNames := c.entitlements[g];
        var j := 0;
        while j < |vanityNames|
          invariant 0 <= j <= |vanityNames|
          invariant es == Values(c, names)
          invariant names + FirstOccurrences(vanityNames[j..] + later, used) == EntitledNames(c, boundaries)
          decreases |vanityNames| - j
        {
          var v := vanityNames[j];
          assert vanityNames[j..] == [v] + vanityNames[j + 1..];
          FirstOccurrencesStep(names, v, vanityNames[j + 1..], later, used);
          if v !in used {
            ValuesAppend(c, names, v);
            es := es + [Lookup(c, v)];
            names := names + [v];
            used := used + {v};
          }
          j := j + 1;
        }
        assert vanityNames[j..] + later == later;
      } else {
        assert [] + later == later;
      }
      i := i + 1;
    }
    assert boundaries[i..] == [];
    assert names + [] == names;
  }

  /** First index of `x` in `xs`. */
  function FirstIndex(xs: seq<string>, x: string): (k: nat)
    requires x in xs
    ensures k < |xs| && xs[k] == x
  {
    if xs[0] == x then 0 else 1 + FirstIndex(xs[1..], x)
  }

  /** No earlier position holds `x`. */
  lemma {:induction false} FirstIndexIsFirst(xs: seq<string>, x: string)
    requires x in xs
    ensures forall j :: 0 <= j < FirstIndex(xs, x) ==> xs[j] != x
    decreases |xs|
  {
    if xs[0] != x {
      FirstIndexIsFirst(xs[1..], x);
      assert forall j :: 0 < j < |xs| ==> xs[j] == xs[1..][j - 1];
    }
  }

  /** The names kept are exactly the names of `xs` not in `used`, and no more of them than `xs` holds. */
  lemma {:induction false} FirstOccurrencesMembers(xs: seq<string>, used: set<string>)
    ensures forall n :: n in FirstOccurrences(xs, used) <==> n in xs && n !in used
    ensures |FirstOccurrences(xs, used)| <= |xs|
    decreases |xs|
  {
    if xs != [] {
      assert forall n :: n in xs <==> n == xs[0] || n in xs[1..];
      if xs[0] in used {
        FirstOccurrencesMembers(xs[1..], used);
      } else {
        FirstOccurrencesMembers(xs[1..], used + {xs[0]});
      }
    }
  }

  /** No name is kept twice. */
  lemma {:induction false} FirstOccurrencesDistinct(xs: seq<string>, used: set<string>)
    ensures Distinct(FirstOccurrences(xs, used))
    decreases |xs|
  {
    if xs != [] {
      if xs[0] in used {
        FirstOccurrencesDistinct(xs[1..], used);
      } else {
        var rest := FirstOccurrences(xs[1..], used + {xs[0]});
        FirstOccurrencesDistinct(xs[1..], used + {xs[0]});
        FirstOccurrencesMembers(xs[1..], used + {xs[0]});
        assert xs[0] !in rest;
        assert FirstOccurrences(xs, used) == [xs[0]] + rest;
      }
    }
  }

  /** The elements of `r` occur in `xs`, in order of their first occurrence there. */
  ghost predicate InFirstOccurrenceOrder(r: seq<string>, xs: seq<string>) {
    (forall n :: n in r ==> n in xs)
    && forall i, j :: 0 <= i < j < |r| && r[i] in xs && r[j] in xs ==>
         FirstIndex(xs, r[i]) < FirstIndex(xs, r[j])
  }

  /** Putting `x` in front of the scanned names keeps the order, whether or not `x` itself is kept. */
  lemma InFirstOccurrenceOrderCons(r: seq<string>, x: string, xs: seq<string>)
    requires InFirstOccurrenceOrder(r, xs) && x !in r
    ensures InFirstOccurrenceOrder(r, [x] + xs)
    ensures InFirstOccurrenceOrder([x] + r, [x] + xs)
  {
    var ys := [x] + xs;
    assert ys[1..] == xs;
    forall n | n in r
      ensures n in ys && FirstIndex(ys, n) == 1 + FirstIndex(xs, n)
    {
    }
    var r' := [x] + r;
    forall i, j | 0 <= i < j < |r'|
      ensures FirstIndex(ys, r'[i]) < FirstIndex(ys, r'[j])
    {
      assert r'[j] == r[j - 1];
      if i > 0 {
        assert r'[i] == r[i - 1];
      }
    }
  }

  /** The names kept appear in order of their first occurrence in `xs`. */
  lemma {:induction false} FirstOccurrencesOrdered(xs: seq<string>, used: set<string>)
    ensures InFirstOccurrenceOrder(FirstOccurrences(xs, used), xs)
    decreases |xs|
  {
    if xs != [] {
      var x := xs[0];
      assert xs == [x] + xs[1..];
      if x in used {
        FirstOccurrencesOrdered(xs[1..], used);
        FirstOccurrencesMembers(xs[1..], used);
        InFirstOccurrenceOrderCons(FirstOccurrences(xs[1..], used), x, xs[1..]);
      } else {
        FirstOccurrencesOrdered(xs[1..], used + {x});
        FirstOccurrencesMembers(xs[1..], used + {x});
        InFirstOccurrenceOrderCons(FirstOccurrences(xs[1..], used + {x}), x, xs[1..]);
      }
    }
  }

  /**
   What `GetEntitlements` promises of the names behind its result: each at
   most once, every name any known boundary lists, nothing else, in order
   of first occurrence, and no more entries than the matched lists hold.
   */
  lemma EntitledNamesProperties(c: Config, boundaries: seq<string>)
    ensures Distinct(EntitledNames(c, boundaries))
    ensures forall n :: n in EntitledNames(c, boundaries) <==>
              exists b :: b in boundaries && b in c.entitlements && n in c.entitlements[b]
    ensures |EntitledNames(c, boundaries)| <= |Matched(c, boundaries)|
    ensures InFirstOccurrenceOrder(EntitledNames(c, boundaries), Matched(c, boundaries))
  {
    FirstOccurrencesMembers(Matched(c, boundaries), {});
    FirstOccurrencesDistinct(Matched(c, boundaries), {});
    FirstOccurrencesOrdered(Matched(c, boundaries), {});
    MatchedMembers(c, boundaries);
  }

  lemma {:induction false} MatchedMembers(c: Config, boundaries: seq<string>)
    ensures forall n :: n in Matched(c, boundaries) <==>
              exists b :: b in boundaries && b in c.entitlements && n in c.entitlements[b]
    decreases |boundaries|
  {
    if boundaries != [] {
      MatchedMembers(c, boundaries[1..]);
      assert forall b :: b in boundaries <==> b == boundaries[0] || b in boundaries[1..];
    }
  }

  /** Boundaries that are not configured contribute nothing. */
  lemma {:induction false} UnknownBoundariesContributeNothing(c: Config, boundaries: seq<string>)
    requires forall b :: b in boundaries ==> b !in c.entitlements
    ensures EntitledNames(c, boundaries) == []
    ensures Values(c, EntitledNames(c, boundaries)) == []
    decreases |boundaries|
  {
    if boundaries != [] {
      UnknownBoundariesContributeNothing(c, boundaries[1..]);
    }
  }

  /**
   Deduplication is by name, not by value: two different listed names whose
   entries are equal both contribute that entry, at different positions.
   */
  lemma SameValueDifferentNames(c: Config, boundaries: seq<string>, n1: string, n2: string)
    requires n1 != n2
    requires n1 in Matched(c, boundaries) && n2 in Matched(c, boundaries)
    requires Lookup(c, n1) == Lookup(c, n2)
    ensures exists i, j :: 0 <= i < j < |Values(c, EntitledNames(c, boundaries))|
              && Values(c, EntitledNames(c, boundaries))[i] == Lookup(c, n1)
              && Values(c, EntitledNames(c, boundaries))[j] == Lookup(c, n1)
  {
    var names := EntitledNames(c, boundaries);
    FirstOccurrencesMembers(Matched(c, boundaries), {});
    var i1 :| 0 <= i1 < |names| && names[i1] == n1;
    var i2 :| 0 <= i2 < |names| && names[i2] == n2;
    var vs := Values(c, names);
    if i1 < i2 {
      assert vs[i1] == Lookup(c, n1) && vs[i2] == Lookup(c, n1);
    } else {
      assert vs[i2] == Lookup(c, n1) && vs[i1] == Lookup(c, n1);
    }
  }

  /** The configuration of the source test: `vn1` and `vn2` share one entry. */
  function ExampleConfig(): Config {
    Config(
      map["grp1" := ["vn1", "vn2"], "grp2" := ["vn1"], "grp3" := ["vn2"]],
      map["vn1" := Entitlement("d1", "/"), "vn2" := Entitlement("d1", "/")])
  }

  /** The test expectations: order of first occurrence, and nothing for unknown boundaries. */
  lemma ExampleResults()
    ensures EntitledNames(ExampleConfig(), ["grp1", "grp2"]) == ["vn1", "vn2"]
    ensures EntitledNames(ExampleConfig(), ["grp3"]) == ["vn2"]
    ensures EntitledNames(ExampleConfig(), ["not-exists"]) == []
  {
    var c := ExampleConfig();
    assert ["grp1", "grp2"][1..] == ["grp2"];
    assert Matched(c, ["grp2"]) == ["vn1"];
    assert Matched(c, ["grp1", "grp2"]) == ["vn1", "vn2", "vn1"];
    assert FirstOccurrences(["vn1"], {"vn1", "vn2"}) == [];
    assert ["vn1", "vn2", "vn1"][1..] == ["vn2", "vn1"];
    assert ["vn2", "vn1"][1..] == ["vn1"];
    assert FirstOccurrences(["vn2", "vn1"], {"vn1"}) == ["vn2"];
    assert Matched(c, ["grp3"]) == ["vn2"];
    assert Matched(c, ["not-exists"]) == [];
  }
}

=== FILE: gopath.dfy ===
/**
 Go's `path.Clean` and `path.Join`, the lexical slash-separated path
 functions the distribution service uses to put a caller's path under a
 distribution's prefix. Nothing here consults a file system.

 `Clean` follows the rules Go documents for it:
   1. replace multiple slashes with a single slash;
   2. eliminate each `.` element;
   3. eliminate each inner `..` element and the non-`..` element before it;
   4. eliminate `..` elements that begin a rooted path;
 the result has no trailing slash, is `/` for an emptied rooted path and
 `.` for an emptied relative one.
 */
module GoPath {
  import opened Common

  /** Length of the leading run of non-slash characters. */
  function FieldEnd(s: string): (i: nat)
    ensures i <= |s|
    ensures forall k :: 0 <= k < i ==> s[k] != '/'
    ensures i < |s| ==> s[i] == '/'
  {
    if s == [] || s[0] == '/' then 0 else 1 + FieldEnd(s[1..])
  }

  /** The non-empty slash-separated elements of `s`, left to right. */
  function Fields(s: string): seq<string>
    decreases |s|
  {
    if s == [] then []
    else if s[0] == '/' then Fields(s[1..])
    else
      var i := FieldEnd(s);
      [s[..i]] + Fields(s[i..])
  }

  /**
   Applies elements to a stack of already-kept elements. `..` removes the
   last kept element unless that is itself `..`; with nothing to remove it
   is dropped in a rooted path and kept in a relative one.
   */
  function Resolve(rooted: bool, stack: seq<string>, elems: seq<string>): seq<string>
    decreases |elems|
  {
    if elems == [] then stack
    else
      var e := elems[0];
      if e == "." then Resolve(rooted, stack, elems[1..])
      else if e == ".." then
        if |stack| > 0 && stack[|stack| - 1] != ".." then Resolve(rooted, stack[..|stack| - 1], elems[1..])
        else if rooted then Resolve(rooted, stack, elems[1..])
        else Resolve(rooted, stack + [".."], elems[1..])
      else Resolve(rooted, stack + [e], elems[1..])
  }

  /** The elements separated by single slashes. */
  function JoinFields(elems: seq<string>): string
    requires elems != []
  {
    if |elems| == 1 then elems[0] else elems[0] + "/" + JoinFields(elems[1..])
  }

  /** Writes a resolved element stack back as a path. */
  function Render(rooted: bool, stack: seq<string>): string {
    if stack == [] then (if rooted then "/" else ".")
    else (if rooted then "/" else "") + JoinFields(stack)
  }

  predicate Rooted(s: string) {
    |s| > 0 && s[0] == '/'
  }

  /**
   Go's `path.Clean`: never empty, rooted exactly when the input is, no
   trailing slash unless the result is `/`, and a rooted result has no `.`
   or `..` element, so it never climbs above `/`.
   */
  function Clean(s: string): (r: string)
    ensures r != ""
    ensures Rooted(r) <==> Rooted(s)
    ensures r[|r| - 1] == '/' ==> r == "/"
    ensures Rooted(s) ==> forall i :: 0 <= i < |Fields(r)| ==> Fields(r)[i] != "." && Fields(r)[i] != ".."
  {
    if s == "" then "."
    else
      FieldsAreElements(s);
      ResolvedRendersClean(Rooted(s), Fields(s));
      Render(Rooted(s), Resolve(Rooted(s), [], Fields(s)))
  }

  /**
   Go's `path.Join` of two elements: empty elements are ignored, the rest
   are joined with a slash and the result cleaned; all-empty gives "".
   */
  function Join(a: string, b: string): (r: string)
    ensures r == "" <==> a == "" && b == ""
    ensures r != "" ==> (Rooted(r) <==> Rooted(a) || (a == "" && Rooted(b)))
    ensures r != "" ==> (r[|r| - 1] == '/' ==> r == "/")
  {
    if a == "" && b == "" then ""
    else if a == "" then Clean(b)
    else
      assert Rooted(a + "/" + b) <==> Rooted(a) by { assert (a + "/" + b)[0] == a[0]; }
      Clean(a + "/" + b)
  }

  /**
   `q` names `base` itself or something below it: `base` followed by a slash
   boundary.
   */
  predicate Under(base: string, q: string) {
    q == base || HasPrefix(q, base + "/") || (base == "/" && HasPrefix(q, "/"))
  }

  /** The elements that survive when no `..` is present: all but `.`. */
  function Kept(elems: seq<string>): (r: seq<string>)
    ensures forall e :: e in r ==> e in elems && e != "."
  {
    if elems == [] then []
    else (if elems[0] == "." then [] else [elems[0]]) + Kept(elems[1..])
  }

  // ---------------------------------------------------------------------
  // Structural lemmas

  lemma {:induction false} FieldEndStopsAtSlash(a: string, t: string)
    requires t == [] || t[0] == '/'
    ensures FieldEnd(a + t) == FieldEnd(a)
    decreases |a|
  {
    if a != [] && a[0] != '/' {
      assert (a + t)[1..] == a[1..] + t;
      FieldEndStopsAtSlash(a[1..], t);
    } else if a == [] {
      assert a + t == t;
    }
  }

  /** A path that starts with a word splits into that word and the rest. */
  lemma FieldsWordStep(s: string)
    requires s != [] && s[0] != '/'
    ensures Fields(s) == [s[..FieldEnd(s)]] + Fields(s[FieldEnd(s)..])
  {
  }

  /** The first element of a path that starts with a word is read from that word alone. */
  lemma FieldsFirstWord(a: string, t: string)
    requires a != [] && a[0] != '/'
    requires t != [] && t[0] == '/'
    ensures Fields(a + t) == [a[..FieldEnd(a)]] + Fields(a[FieldEnd(a)..] + t)
  {
    assert (a + t)[0] == a[0];
    FieldsWordStep(a + t);
    FieldEndStopsAtSlash(a, t);
    SlicesOfConcat(a, t, FieldEnd(a));
  }

  lemma SlicesOfConcat(a: string, t: string, i: nat)
    requires i <= |a|
    ensures (a + t)[..i] == a[..i] && (a + t)[i..] == a[i..] + t
  {
  }

  /** Splitting a path made by joining two paths with a slash. */
  lemma {:induction false} FieldsOfJoin(a: string, b: string)
    ensures Fields(a + "/" + b) == Fields(a) + Fields(b)
    decreases |a|
  {
    var t := "/" + b;
    ConcatAssoc(a, "/", b);
    if a == [] {
      assert a + t == t;
      FieldsSlashStep(t);
      assert t[1..] == b;
    } else if a[0] == '/' {
      FieldsSlashStep(a);
      FieldsSlashStep(a + t);
      SlicesOfConcat(a, t, 1);
      ConcatAssoc(a[1..], "/", b);
      FieldsOfJoin(a[1..], b);
    } else {
      var i := FieldEnd(a);
      FieldsWordStep(a);
      FieldsFirstWord(a, t);
      ConcatAssoc(a[i..], "/", b);
      FieldsOfJoin(a[i..], b);
    }
  }

  /** A leading slash contributes no element. */
  lemma FieldsSlashStep(s: string)
    requires s != [] && s[0] == '/'
    ensures Fields(s) == Fields(s[1..])
  {
  }

  lemma ConcatAssoc(a: string, m: string, b: string)
    ensures a + m + b == a + (m + b)
  {
  }

  lemma {:induction false} ResolveConcat(rooted: bool, stack: seq<string>, xs: seq<string>, ys: seq<string>)
    ensures Resolve(rooted, stack, xs + ys) == Resolve(rooted, Resolve(rooted, stack, xs), ys)
    decreases |xs|
  {
    if xs == [] {
      assert xs + ys == ys;
    } else {
      assert (xs + ys)[0] == xs[0];
      assert (xs + ys)[1..] == xs[1..] + ys;
      var e := xs[0];
      if e == "." {
        ResolveConcat(rooted, stack, xs[1..], ys);
      } else if e == ".." {
        if |stack| > 0 && stack[|stack| - 1] != ".." {
          ResolveConcat(rooted, stack[..|stack| - 1], xs[1..], ys);
        } else if rooted {
          ResolveConcat(rooted, stack, xs[1..], ys);
        } else {
          ResolveConcat(rooted, stack + [".."], xs[1..], ys);
        }
      } else {
        ResolveConcat(rooted, stack + [e], xs[1..], ys);
      }
    }
  }

  /** One element that is not `..` is dropped if it is `.` and pushed otherwise. */
  lemma ResolvePlainStep(rooted: bool, stack: seq<string>, elems: seq<string>)
    requires elems != [] && elems[0] != ".."
    ensures Resolve(rooted, stack, elems)
            == Resolve(rooted, if elems[0] == "." then stack else stack + [elems[0]], elems[1..])
  {
  }

  /** Without `..` elements nothing already kept is ever removed. */
  lemma {:induction false} ResolveWithoutDotDot(rooted: bool, stack: seq<string>, elems: seq<string>)
    requires ".." !in elems
    ensures Resolve(rooted, stack, elems) == stack + Kept(elems)
    decreases |elems|
  {
    if elems == [] {
      assert stack + [] == stack;
    } else {
      var e := elems[0];
      var rest := elems[1..];
      assert elems == [e] + rest;
      ResolvePlainStep(rooted, stack, elems);
      var next := if e == "." then stack else stack + [e];
      ResolveWithoutDotDot(rooted, next, rest);
      assert next + Kept(rest) == stack + Kept(elems);
    }
  }

  lemma {:induction false} JoinFieldsConcat(xs: seq<string>, ys: seq<string>)
    requires xs != [] && ys != []
    ensures JoinFields(xs + ys) == JoinFields(xs) + "/" + JoinFields(ys)
    decreases |xs|
  {
    if |xs| == 1 {
      assert (xs + ys)[1..] == ys;
    } else {
      assert (xs + ys)[1..] == xs[1..] + ys;
      JoinFieldsConcat(xs[1..], ys);
    }
  }

  // ---------------------------------------------------------------------
  // Clean paths

  /** A path element as `Fields` produces it: non-empty and slash-free. */
  predicate Element(e: string) {
    e != [] && '/' !in e
  }

  predicate Elements(st: seq<string>) {
    forall i :: 0 <= i < |st| ==> Element(st[i])
  }

  /**
   A stack `Resolve` can leave behind: no `.`, no `..` in a rooted path,
   and in a relative path the `..` elements all come first.
   */
  predicate CleanStack(rooted: bool, st: seq<string>) {
    && Elements(st)
    && (forall i :: 0 <= i < |st| ==> st[i] != ".")
    && (rooted ==> forall i :: 0 <= i < |st| ==> st[i] != "..")
    && (forall i, j :: 0 <= i < j < |st| && st[j] == ".." ==> st[i] == "..")
  }

  lemma {:induction false} FieldsAreElements(s: string)
    ensures Elements(Fields(s))
    decreases |s|
  {
    if s != [] {
      if s[0] == '/' {
        FieldsAreElements(s[1..]);
      } else {
        var i := FieldEnd(s);
        assert s[..i][0] == s[0];
        assert forall k :: 0 <= k < |s[..i]| ==> s[..i][k] != '/';
        FieldsAreElements(s[i..]);
      }
    }
  }

  lemma FieldsOfElement(e: string)
    requires Element(e)
    ensures Fields(e) == [e]
  {
    var i := FieldEnd(e);
    assert forall k :: 0 <= k < |e| ==> e[k] != '/';
    assert e[..i] == e && e[i..] == [];
  }

  /** Splitting the joined elements gives the elements back. */
  lemma {:induction false} FieldsOfJoinFields(st: seq<string>)
    requires st != [] && Elements(st)
    ensures Fields(JoinFields(st)) == st
    decreases |st|
  {
    FieldsOfElement(st[0]);
    if |st| > 1 {
      FieldsOfJoin(st[0], JoinFields(st[1..]));
      FieldsOfJoinFields(st[1..]);
    }
  }

  /** The joined elements start with the first element's first character and end with the last's last. */
  lemma {:induction false} JoinFieldsEnds(st: seq<string>)
    requires st != [] && Elements(st)
    ensures var j := JoinFields(st); j != [] && j[0] == st[0][0] && j[|j| - 1] == Last(Last(st))
    decreases |st|
  {
    if |st| > 1 {
      JoinFieldsEnds(st[1..]);
    }
  }

  function Last<T>(xs: seq<T>): T
    requires xs != []
  {
    xs[|xs| - 1]
  }

  /** Resolving onto a clean stack leaves a clean stack. */
  lemma {:induction false} ResolveKeepsClean(rooted: bool, stack: seq<string>, elems: seq<string>)
    requires CleanStack(rooted, stack) && Elements(elems)
    ensures CleanStack(rooted, Resolve(rooted, stack, elems))
    decreases |elems|
  {
    if elems != [] {
      var e := elems[0];
      assert Element(e);
      assert Elements(elems[1..]) by {
        forall i | 0 <= i < |elems[1..]| ensures Element(elems[1..][i]) {
          assert elems[1..][i] == elems[i + 1];
        }
      }
      if e == "." {
        ResolveKeepsClean(rooted, stack, elems[1..]);
      } else if e == ".." {
        if |stack| > 0 && stack[|stack| - 1] != ".." {
          ResolveKeepsClean(rooted, stack[..|stack| - 1], elems[1..]);
        } else if rooted {
          ResolveKeepsClean(rooted, stack, elems[1..]);
        } else {
          assert forall i :: 0 <= i < |stack| ==> stack[i] == "..";
          ResolveKeepsClean(rooted, stack + [".."], elems[1..]);
        }
      } else {
        ResolveKeepsClean(rooted, stack + [e], elems[1..]);
      }
    }
  }

  /** A clean stack resolves to itself: every element is pushed again. */
  lemma {:induction false} ResolveCleanIdentity(rooted: bool, pre: seq<string>, rest: seq<string>)
    requires CleanStack(rooted, pre + rest)
    ensures Resolve(rooted, pre, rest) == pre + rest
    decreases |rest|
  {
    if rest == [] {
      assert pre + rest == pre;
    } else {
      var e := rest[0];
      var st := pre + rest;
      assert st[|pre|] == e;
      assert (pre + [e]) + rest[1..] == st;
      if e == ".." {
        assert !rooted;
        forall i | 0 <= i < |pre| ensures pre[i] == ".." {
          assert st[i] == pre[i];
        }
      }
      ResolveCleanIdentity(rooted, pre + [e], rest[1..]);
    }
  }

  /** What `Clean` relies on about a resolved and rendered element list. */
  lemma ResolvedRendersClean(rooted: bool, elems: seq<string>)
    requires Elements(elems)
    ensures var st := Resolve(rooted, [], elems);
            var r := Render(rooted, st);
            && CleanStack(rooted, st)
            && r != ""
            && (Rooted(r) <==> rooted)
            && (r[|r| - 1] == '/' ==> r == "/")
            && Fields(r) == (if st == [] && !rooted then ["."] else st)
  {
    var st := Resolve(rooted, [], elems);
    ResolveKeepsClean(rooted, [], elems);
    RenderClean(rooted, st);
  }

  lemma RenderClean(rooted: bool, st: seq<string>)
    requires Elements(st)
    ensures var r := Render(rooted, st);
            && r != ""
            && (Rooted(r) <==> rooted)
            && (r[|r| - 1] == '/' ==> r == "/")
            && Fields(r) == (if st == [] && !rooted then ["."] else st)
  {
    var r := Render(rooted, st);
    if st == [] {
      if !rooted {
        FieldsOfElement(".");
      } else {
        assert "/"[1..] == [];
      }
    } else {
      var j := JoinFields(st);
      JoinFieldsEnds(st);
      FieldsOfJoinFields(st);
      assert Element(st[0]) && Element(Last(st));
      assert st[0][0] in st[0] && Last(Last(st)) in Last(st);
      if rooted {
        assert r[1..] == j && r[|r| - 1] == j[|j| - 1];
      } else {
        assert r == j;
      }
    }
  }

  lemma {:induction false} KeptElements(xs: seq<string>)
    requires Elements(xs)
    ensures Elements(Kept(xs))
    decreases |xs|
  {
    if xs != [] {
      assert Elements(xs[1..]) by {
        forall i | 0 <= i < |xs[1..]| ensures Element(xs[1..][i]) {
          assert xs[1..][i] == xs[i + 1];
        }
      }
      KeptElements(xs[1..]);
      assert Element(xs[0]);
    }
  }

  /**
   Without `..`, a rooted path cleans to its elements in order, less the
   `.` elements: repeated slashes and `.` disappear, nothing else does.
   */
  lemma CleanKeeps(s: string)
    requires Rooted(s) && ".." !in Fields(s)
    ensures Fields(Clean(s)) == Kept(Fields(s))
  {
    FieldsAreElements(s);
    ResolveWithoutDotDot(true, [], Fields(s));
    assert [] + Kept(Fields(s)) == Kept(Fields(s));
    assert Clean(s) == Render(true, Kept(Fields(s)));
    KeptElements(Fields(s));
    RenderClean(true, Kept(Fields(s)));
  }

  /**
   Joining a path without `..` onto a rooted prefix gives the cleaned
   prefix's elements followed by the path's own elements in order, less `.`.
   */
  lemma JoinKeeps(prefix: string, p: string)
    requires Rooted(prefix) && ".." !in Fields(p)
    ensures Fields(Join(prefix, p)) == Fields(Clean(prefix)) + Kept(Fields(p))
  {
    var base := Resolve(true, [], Fields(prefix));
    var kept := Kept(Fields(p));
    JoinResolves(prefix, p);
    ResolveWithoutDotDot(true, base, Fields(p));
    assert Join(prefix, p) == Render(true, base + kept);
    FieldsAreElements(prefix);
    ResolvedRendersClean(true, Fields(prefix));
    assert Fields(Clean(prefix)) == base;
    FieldsAreElements(p);
    KeptElements(Fields(p));
    FieldsOfRenderAppend(base, kept);
  }

  lemma FieldsOfRenderAppend(base: seq<string>, extra: seq<string>)
    requires Elements(base) && Elements(extra)
    ensures Fields(Render(true, base + extra)) == base + extra
  {
    assert Elements(base + extra) by {
      forall i | 0 <= i < |base + extra| ensures Element((base + extra)[i]) {
        if i < |base| {
          assert (base + extra)[i] == base[i];
        } else {
          assert (base + extra)[i] == extra[i - |base|];
        }
      }
    }
    RenderClean(true, base + extra);
  }

  /** `Clean` is idempotent: a cleaned path is already clean. */
  lemma CleanIdempotent(s: string)
    ensures Clean(Clean(s)) == Clean(s)
  {
    var c := Clean(s);
    if s == "" {
      FieldsOfElement(".");
    } else {
      var rooted := Rooted(s);
      FieldsAreElements(s);
      var st := Resolve(rooted, [], Fields(s));
      ResolvedRendersClean(rooted, Fields(s));
      if st == [] && !rooted {
        assert Fields(c) == ["."];
      } else {
        assert Fields(c) == st;
        assert [] + st == st;
        ResolveCleanIdentity(rooted, [], st);
      }
    }
  }

  /** A non-empty `Join` result is already clean. */
  lemma JoinIsClean(a: string, b: string)
    requires a != "" || b != ""
    ensures Clean(Join(a, b)) == Join(a, b)
  {
    if a == "" {
      CleanIdempotent(b);
    } else {
      CleanIdempotent(a + "/" + b);
    }
  }

  // ---------------------------------------------------------------------
  // Prefix confinement

  /** Joining onto a rooted prefix resolves the second path's elements on top of the first's. */
  lemma {:induction false} JoinResolves(prefix: string, p: string)
    requires Rooted(prefix)
    ensures Join(prefix, p) == Render(true, Resolve(true, Resolve(true, [], Fields(prefix)), Fields(p)))
  {
    var s := prefix + "/" + p;
    assert Rooted(s) by { assert s[0] == prefix[0]; }
    FieldsOfJoin(prefix, p);
    ResolveConcat(true, [], Fields(prefix), Fields(p));
  }

  /** Appending elements to a rooted stack renders to the old path or a path below it. */
  lemma {:induction false} RenderAppendUnder(base: seq<string>, extra: seq<string>)
    ensures Under(Render(true, base), Render(true, base + extra))
  {
    if base == [] {
      assert base + extra == extra;
    } else if extra == [] {
      assert base + extra == base;
    } else {
      JoinFieldsConcat(base, extra);
      assert Render(true, base + extra) == (Render(true, base) + "/") + JoinFields(extra);
    }
  }

  /**
   Joining a path that has no `..` element onto a rooted prefix never leaves
   the cleaned prefix: the result is the prefix or lies below it.
   */
  lemma JoinConfined(prefix: string, p: string)
    requires Rooted(prefix)
    requires ".." !in Fields(p)
    ensures Under(Clean(prefix), Join(prefix, p))
  {
    var base := Resolve(true, [], Fields(prefix));
    JoinResolves(prefix, p);
    ResolveWithoutDotDot(true, base, Fields(p));
    RenderAppendUnder(base, Kept(Fields(p)));
  }

  /**
   A path whose only `..` element is its last one: if `p` has a `..`
   element and no `../` anywhere, then `p` is `..` or ends with `/..`.
   */
  lemma {:induction false} DotDotWithoutSlashIsLast(p: string)
    requires ".." in Fields(p)
    requires !Contains(p, "../")
    ensures p == ".." || HasSuffix(p, "/..")
    decreases |p|
  {
    if p[0] == '/' {
      DotDotWithoutSlashIsLast(p[1..]);
      if p[1..] == ".." {
        assert p == "/..";
      } else {
        TailSuffix(p, 1);
      }
    } else {
      var i := FieldEnd(p);
      if p[..i] != ".." {
        assert ".." in Fields(p[i..]);
        if Contains(p[i..], "../") {
          ContainsSuffix(p, i, "../");
        }
        DotDotWithoutSlashIsLast(p[i..]);
        assert p[i..] != ".." by { assert p[i] == '/'; }
        TailSuffix(p, i);
      }
    }
  }

  lemma TailSuffix(p: string, k: nat)
    requires k <= |p| && HasSuffix(p[k..], "/..")
    ensures HasSuffix(p, "/..")
  {
    assert p[|p| - 3..] == p[k..][|p[k..]| - 3..];
  }

  /**
   The guard a caller needs so that `Join(prefix, p)` stays under the
   prefix: no `../` anywhere and no trailing `..` element.
   */
  predicate ClimbsFree(p: string) {
    !Contains(p, "../") && p != ".." && !HasSuffix(p, "/..")
  }

  lemma ClimbsFreeHasNoDotDot(p: string)
    requires ClimbsFree(p)
    ensures ".." !in Fields(p)
  {
    if ".." in Fields(p) {
      DotDotWithoutSlashIsLast(p);
    }
  }

  // ---------------------------------------------------------------------
  // Worked examples

  lemma FieldsExamples()
    ensures Fields("/foo") == ["foo"]
    ensures Fields("/..") == [".."]
    ensures Fields("/*") == ["*"]
  {
    assert FieldEnd("") == 0;
    assert FieldEnd("o") == 1;
    assert FieldEnd("oo") == 2;
    assert FieldEnd("foo") == 3;
    assert "foo"[..3] == "foo" && "foo"[3..] == "";
    assert "/foo"[1..] == "foo";
    assert FieldEnd(".") == 1;
    assert FieldEnd("..") == 2;
    assert ".."[..2] == ".." && ".."[2..] == "";
    assert "/.."[1..] == "..";
    assert FieldEnd("*") == 1;
    assert "*"[..1] == "*" && "*"[1..] == "";
    assert "/*"[1..] == "*";
  }

  /** A trailing `..` escapes the prefix: joining `/..` onto `/foo` gives `/`. */
  lemma JoinClimbsOutExample()
    ensures Join("/foo", "/..") == "/"
    ensures !Contains("/..", "../")
    ensures !Under(Clean("/foo"), Join("/foo", "/.."))
  {
    FieldsExamples();
    FieldsOfJoin("/foo", "/..");
    assert Fields("/foo" + "/" + "/..") == ["foo", ".."];
    assert Resolve(true, [], ["foo", ".."]) == [];
    assert Rooted("/foo" + "/" + "/..");
    assert Resolve(true, [], ["foo"]) == ["foo"];
    assert Clean("/foo") == "/foo";
    assert !HasPrefix("/..", "../");
    assert "/.."[1..] == "..";
    assert !HasPrefix("..", "../");
    assert ".."[1..] == ".";
    assert !HasPrefix(".", "../");
    assert "."[1..] == "";
    assert !Contains("", "../");
  }

  // The example from the service tests: joining `/*` onto `/foo` gives `/foo/*`.
  lemma JoinUnderPrefixExample()
    ensures Join("/foo", "/*") == "/foo/*"
  {
    FieldsExamples();
    FieldsOfJoin("/foo", "/*");
    assert Fields("/foo" + "/" + "/*") == ["foo", "*"];
    assert Rooted("/foo" + "/" + "/*");
    assert Resolve(true, [], ["foo", "*"]) == ["foo", "*"];
  }
}

=== FILE: invalidation_errors.dfy ===
/**
 The service's error values: a plain Go error (`errors.New`, `fmt.Errorf`
 without `%w`) or an `InvalidationError` carrying a code, a status reason
 rendered from a per-code template, and the error it wraps.

 The status reason for a code that has no template (500) comes from
 formatting an empty template, which the model leaves unspecified: such a
 status is `None`, and so is any error text that falls back on it.
 */
module InvalidationErrors {
  import opened Common

  const ResourceNotFoundErrorCode: int := 404
  const InvalidationUnauthorizedErrorCode: int := 403
  const InternalServerError: int := 500

  datatype Error =
    | Message(text: string)
    | Invalidation(ierr: InvalidationError)

  datatype InvalidationError = InvalidationError(status: Option<string>, wrapped: Option<Error>, code: int)

  /** One argument for the status template: a string or an error. */
  datatype Arg = StringArg(s: string) | ErrorArg(e: Error)

  /** The `statusCodeReasons` table, each template being its text before `%s`. */
  function StatusTemplate(code: int): Option<string> {
    if code == InvalidationUnauthorizedErrorCode then Some("User is not entitled to invalidate distribution: ")
    else if code == ResourceNotFoundErrorCode then Some("Resource not found: ")
    else None
  }

  /** What `%s` prints for an argument: a string itself, an error its text. */
  function ArgText(a: Arg): Option<string> {
    match a
    case StringArg(s) => Some(s)
    case ErrorArg(e) => ErrorText(e)
  }

  /** The `Error()` method of any error value. */
  function ErrorText(e: Error): Option<string>
    decreases e, 1
  {
    match e
    case Message(t) => Some(t)
    case Invalidation(ie) => InvalidationText(ie)
  }

  /** `InvalidationError.Error()`: the wrapped error's text, else the status. */
  function InvalidationText(ie: InvalidationError): (r: Option<string>)
    decreases ie, 0
    ensures ie.wrapped.Some? ==> r == ErrorText(ie.wrapped.value)
    ensures ie.wrapped.None? ==> r == ie.status
  {
    match ie.wrapped
    case Some(w) => ErrorText(w)
    case None => ie.status
  }

  /**
   `InvalidationError.Unwrap()`: the error whose text the invalidation
   error shows, if any; without one it shows its status.
   */
  function Unwrap(ie: InvalidationError): (r: Option<Error>)
    ensures r.Some? ==> InvalidationText(ie) == ErrorText(r.value)
    ensures r.None? ==> InvalidationText(ie) == ie.status
  {
    ie.wrapped
  }

  /** The status reason `fmt.Sprintf(statusCodeReasons[code], arg)`. */
  function Reason(code: int, arg: Arg): Option<string> {
    match (StatusTemplate(code), ArgText(arg))
    case (Some(t), Some(a)) => Some(t + a)
    case _ => None
  }

  /** `NewInvalidationError(code, err, arg)` with its single template argument. */
  function NewInvalidationError(code: int, err: Option<Error>, arg: Arg): (r: Error)
    ensures r.Invalidation?
    ensures r.ierr.code == code && Unwrap(r.ierr) == err
    ensures code == ResourceNotFoundErrorCode && arg.StringArg? ==>
              r.ierr.status == Some("Resource not found: " + arg.s)
    ensures code == InvalidationUnauthorizedErrorCode && arg.StringArg? ==>
              r.ierr.status == Some("User is not entitled to invalidate distribution: " + arg.s)
    ensures code != ResourceNotFoundErrorCode && code != InvalidationUnauthorizedErrorCode ==>
              r.ierr.status.None?
    ensures err.Some? ==> ErrorText(r) == ErrorText(err.value)
  {
    Invalidation(InvalidationError(Reason(code, arg), err, code))
  }

  /**
   `errors.As(err, &ierr)`: the first `InvalidationError` on the unwrap chain.
   Plain errors here wrap nothing, so that is the error itself or nothing.
   */
  function AsInvalidationError(e: Error): Option<InvalidationError> {
    match e
    case Invalidation(ie) => Some(ie)
    case Message(_) => None
  }

  /** `ErrorIsUnauthorized`: an invalidation error with code 403. */
  function ErrorIsUnauthorized(e: Error): (b: bool)
    ensures b <==> e.Invalidation? && e.ierr.code == 403
  {
    match AsInvalidationError(e)
    case Some(ie) => ie.code == InvalidationUnauthorizedErrorCode
    case None => false
  }

  /** `ErrorResourceNotFound`: an invalidation error with code 404. */
  function ErrorResourceNotFound(e: Error): (b: bool)
    ensures b <==> e.Invalidation? && e.ierr.code == 404
  {
    match AsInvalidationError(e)
    case Some(ie) => ie.code == ResourceNotFoundErrorCode
    case None => false
  }

  /**
   The two classifications are exclusive, both are false for plain errors,
   and each holds exactly for an invalidation error carrying its code.
   */
  lemma ClassificationExclusive(e: Error)
    ensures !(ErrorIsUnauthorized(e) && ErrorResourceNotFound(e))
    ensures e.Message? ==> !ErrorIsUnauthorized(e) && !ErrorResourceNotFound(e)
    ensures ErrorIsUnauthorized(e) <==> e.Invalidation? && e.ierr.code == 403
    ensures ErrorResourceNotFound(e) <==> e.Invalidation? && e.ierr.code == 404
  {
  }

  /** Classifying a freshly built error reads back the code it was built with. */
  lemma ClassifyNewError(code: int, err: Option<Error>, arg: Arg)
    ensures ErrorIsUnauthorized(NewInvalidationError(code, err, arg)) <==> code == 403
    ensures ErrorResourceNotFound(NewInvalidationError(code, err, arg)) <==> code == 404
  {
  }
}
